=== FILE: README.md ===
# flux-nova class resolvers, modelled in Dafny

flux-nova is a small React component library with three components: `Button`,
`Input` and `Card` (with `CardHeader`, `CardBody` and `CardFooter`). Each one
computes its `className` from a handful of closed-enum options and boolean
flags. The computation goes in a fixed order: base tokens, table lookups by
size, variant and (for the card) padding, flag-gated fragments, and last the
caller's `className`. The segments are combined with
`[...].filter(Boolean).join(" ")`, or, for the card's sub-parts, with a plain
`join(" ")`. The components also make a few small rendering decisions:

- whether the button is disabled;
- whether the button shows the spinner or its own content;
- which id the input field gets, and which parts of the input are rendered;
- whether the card header shows its title block or its children.

This project models those resolvers and decisions as pure Dafny functions and
proves what they produce.

Files:

- `wrappers.dfy`: `Option`, its default-taking accessor, and JavaScript
  truthiness of an optional string.
- `classnames.dfy`: the two joins and the view used to state results token by
  token.
  - `JoinAll` is a plain `join(" ")`.
  - `JoinNonEmpty` is `filter(Boolean).join(" ")`.
  - `Split` is `split(" ")`.
  - `Tokens` is a string's words split on single spaces, with the empty ones
    dropped. A browser's class list also splits on tabs and line breaks;
    `Tokens` does not, so a caller class holding those is seen as fewer,
    longer words.
  - `WellSpaced` means no leading, trailing or doubled space.
  - `Count` is how many times a token is listed.
- `button.dfy`, `input.dfy`, `card.dfy`: one module per component file.

Each constant class string that a resolver joins, and the card header's
title and subtitle classes, is written as its list of tokens. Joining that
list with single spaces gives back the source's literal, and every such list
is proved to be a list of single tokens.

Each of the three component resolvers (`Button.ClassName`, `Input.ClassName`
and `Card.ClassName`) has a partner: `ExpectedTokens`, a reference definition
that lists the tokens segment by segment. Two lemmas connect them:

- `ClassTokens`: the resolved string denotes exactly the expected token list,
  whatever the caller's class is.
- `ClassExact`: when the caller's class is well spaced, the resolved string is
  exactly that list joined by single spaces.

Membership lemmas state in both directions when each flag-gated token is
present. Counting lemmas state the duplicates that the resolvers keep:
`hover:shadow-lg` and `hover:-translate-y-1` on the card (once per interaction
flag) and `rounded-lg` on the md card.

## Model

| member | source | states |
|---|---|---|
| ClassNames.TokensJoinNonEmpty | src/components/button/Button.tsx:103-109 | filtering out the empty segments and joining the rest with spaces loses, adds and reorders no token: the result's class list is the segments' class lists, concatenated in order |
| ClassNames.ResolvedExactly | src/components/button/Button.tsx:103-109 | when every segment is well spaced, the filtered join is exactly its tokens joined by single spaces, so there is no leading, trailing or doubled space |
| ClassNames.JoinNonEmptyLast | src/components/button/Button.tsx:108-109 | a non-empty last segment is appended after one space, or stands alone when every earlier segment is empty |
| ClassNames.JoinNonEmptyEmptyLast | src/components/button/Button.tsx:108-109 | an empty last segment adds nothing to the filtered join, not even a space |
| ClassNames.TokensJoinAll | src/components/card/Card.tsx:94-97 | the plain join keeps every segment's tokens in order |
| Button.OmittedIsDefault | src/components/button/Button.tsx:19-30 | for any other props, omitting any one of variant, size, loading, fullWidth and className renders the same button as passing primary, md, false, false or the empty string; omitting all five gives the same class as passing all five defaults |
| Button.SizeTable | src/components/button/Button.tsx:44-49 | each size's entry is four single tokens |
| Button.VariantTable | src/components/button/Button.tsx:52-94 | each variant's entry is a non-empty list of single tokens |
| Button.VariantsDistinct | src/components/button/Button.tsx:52-94 | two different variants contribute different token lists |
| Button.ModifierSegments | src/components/button/Button.tsx:97-101 | the modifier fragment lists `w-full` when fullWidth, then `cursor-not-allowed opacity-60` when loading or disabled, then `pointer-events-none` when loading, in that order and single spaced |
| Button.ClassTokens | src/components/button/Button.tsx:103-109 | the final class lists the base, size, variant and modifier tokens and then the caller's tokens, in that order |
| Button.ClassExact | src/components/button/Button.tsx:103-109 | with a well-spaced caller class, the final class is exactly those tokens joined by single spaces |
| Button.ExtraLast | src/components/button/Button.tsx:103-109 | an empty caller class leaves the first four segments' join unchanged; a non-empty one is appended after a single space, as the last segment |
| Button.FullWidthToken | src/components/button/Button.tsx:98-109 | `w-full` is in the class iff fullWidth is on or the caller's class holds it |
| Button.BlockedTokensPresent | src/components/button/Button.tsx:99-109 | `cursor-not-allowed` and `opacity-60` are in the class iff the button is loading or disabled, or the caller's class holds them |
| Button.PointerEventsToken | src/components/button/Button.tsx:100-109 | `pointer-events-none` is in the class iff the button is loading or the caller's class holds it |
| Button.FullWidthOnlyInserts | src/components/button/Button.tsx:97-109 | turning fullWidth on inserts `w-full` right after the base, size and variant tokens and leaves every other token where it was |
| Button.Content | src/components/button/Button.tsx:117-142 | while loading, the content is the spinner and `Loading...`; otherwise it is the left icon (when present), the children and the right icon (when present), and the spinner is shown iff loading |
| Button.DisabledMatchesClass | src/components/button/Button.tsx:99-142 | unless the caller's class supplies `cursor-not-allowed`, the rendered button is disabled iff its class holds `cursor-not-allowed`; a button disabled only by loading renders the spinner and `Loading...` instead of its content |
| Button.LoadingIgnoresContent | src/components/button/Button.tsx:114-135 | while loading, changing the children or icons changes nothing that is rendered, and the button is disabled |
| Button.DangerExample | src/components/button/Button.tsx:74-79 | the danger variant with every other option omitted resolves to the base, md and danger tokens joined by single spaces, is not disabled and shows no spinner |
| Input.FieldId | src/components/input/Input.tsx:32 | the field id is never empty; it is the caller's id when that id is truthy, and otherwise starts with `input-` |
| Input.OmittedIsDefault | src/components/input/Input.tsx:18-30 | omitting variant, inputSize, fullWidth and className together is the same as passing default, md, false and the empty string, for the field's class and for the whole render (label and helper tones, wrapper class) |
| Input.OmittedVariant | src/components/input/Input.tsx:19 | for any other props, omitting the variant renders the same as passing `default` |
| Input.OmittedSize | src/components/input/Input.tsx:20 | for any other props, omitting the size renders the same as passing `md` |
| Input.OmittedFullWidth | src/components/input/Input.tsx:25 | for any other props, omitting fullWidth renders the same as passing `false` |
| Input.OmittedClassName | src/components/input/Input.tsx:26 | for any other props, omitting className renders the same as passing the empty string |
| Input.SizeTable | src/components/input/Input.tsx:44-48 | each size's entry is a list of single tokens |
| Input.VariantTable | src/components/input/Input.tsx:51-69 | each variant's entry is a list of single tokens |
| Input.PaddingSegment | src/components/input/Input.tsx:77-80 | the padding fragment lists `pl-10` iff there is a left icon and then `pr-10` iff there is a right icon, single spaced; with no icon it lists no token |
| Input.ClassTokens | src/components/input/Input.tsx:82-89 | the field's class lists the base, size, variant, padding and width tokens and then the caller's tokens, in that order |
| Input.ClassExact | src/components/input/Input.tsx:82-89 | with a well-spaced caller class, the field's class is exactly those tokens joined by single spaces |
| Input.LeftPaddingToken | src/components/input/Input.tsx:77-89 | `pl-10` is in the field's class iff there is a left icon or the caller's class holds it |
| Input.RightPaddingToken | src/components/input/Input.tsx:77-89 | `pr-10` is in the field's class iff there is a right icon or the caller's class holds it |
| Input.FullWidthToken | src/components/input/Input.tsx:82-89 | `w-full` is in the field's class iff fullWidth is on or the caller's class holds it |
| Input.LabelClassTokens | src/components/input/Input.tsx:92-98 | the label's class is its four fixed tokens, the variant's tone, and `text-gray-500` after the tone exactly when disabled; it is single spaced |
| Input.HelperClassTokens | src/components/input/Input.tsx:101-106 | the helper text's class is `mt-1 text-sm` followed by the variant's tone, single spaced, whatever the disabled flag |
| Input.IconContainerTokensOf | src/components/input/Input.tsx:72-74 | the two icon containers share the container tokens, followed by `left-0 pl-3` or `right-0 pr-3`; both are single spaced |
| Input.RenderedTextClasses | src/components/input/Input.tsx:91-151 | a rendered label lists the label base tokens, the variant's tone and `text-gray-500` exactly when the field is disabled; a rendered helper lists `mt-1 text-sm` and the variant's tone |
| Input.Render | src/components/input/Input.tsx:108-153 | the label is rendered iff the label text is truthy, and its `htmlFor` is the field's id; the helper is rendered iff the helper text is truthy; each icon container is rendered iff its icon is present and has its side's class; the wrapper's class is `w-full` iff fullWidth, else empty |
| Input.ExplicitId | src/components/input/Input.tsx:32 | a truthy caller id is the field's id, and the render does not depend on the generated suffix |
| Input.GeneratedId | src/components/input/Input.tsx:32 | without a truthy caller id, the field's id is `input-` and the suffix drawn for this render, so different draws give different ids |
| Input.EmptyTextsRenderNothing | src/components/input/Input.tsx:111-151 | an empty label text renders no label, and an empty helper text renders no helper, each whatever the other is |
| Card.OmittedIsDefault | src/components/card/Card.tsx:18-27 | for any other props, omitting any one of variant, size, hoverable, clickable, padding and className gives the same class as passing default, md, false, false, md or the empty string; omitting all six gives the class of all six defaults |
| Card.SingleTables | src/components/card/Card.tsx:43-55 | each size's rounding and each padding entry is a single token |
| Card.InteractiveSegment | src/components/card/Card.tsx:58-63 | the interactive fragment lists the hover-lift tokens iff hoverable, then the clickable tokens iff clickable, then the variant's border hover colour when interactive, single spaced |
| Card.ClassTokens | src/components/card/Card.tsx:65-72 | the card's class lists the base, variant, rounding, padding and interactive tokens and then the caller's tokens, in that order, variant before size |
| Card.ClassExact | src/components/card/Card.tsx:65-72 | with a well-spaced caller class, the card's class is exactly those tokens joined by single spaces |
| Card.SizeOnlyChangesRounding | src/components/card/Card.tsx:43-72 | changing the size swaps the rounding token and leaves every other token where it was |
| Card.StaticCard | src/components/card/Card.tsx:58-72 | with neither hoverable nor clickable, the interactive fragment is empty and the class is base, variant, rounding, padding and the caller's tokens |
| Card.HoverShadowCount | src/components/card/Card.tsx:59-60 | `hover:shadow-lg` is listed once per interaction flag, so twice on a card that is both hoverable and clickable |
| Card.RoundedCount | src/components/card/Card.tsx:29-47 | `rounded-lg` is listed once by the base and once more by the md size |
| Card.TranslateCount | src/components/card/Card.tsx:59-60 | `hover:-translate-y-1` is listed once per interaction flag, so twice on a card that is both hoverable and clickable |
| Card.ActiveTokens | src/components/card/Card.tsx:60-72 | `active:translate-y-0` and `active:shadow-md` are in the class iff the card is clickable or the caller's class holds them |
| Card.CursorToken | src/components/card/Card.tsx:60-72 | `cursor-pointer` is in the class iff the card is clickable or the caller's class holds it |
| Card.OutlinedHoverToken | src/components/card/Card.tsx:61-72 | `hover:border-gray-400` is in the class iff the card is hoverable or clickable and outlined, or the caller's class holds it |
| Card.DefaultHoverToken | src/components/card/Card.tsx:62-72 | `hover:border-gray-300` is in the class iff the card is hoverable or clickable and of the default variant, or the caller's class holds it |
| Card.PartClassShape | src/components/card/Card.tsx:94-97 | a sub-part's class is its fixed tokens, one space and the caller's class, unfiltered; an empty caller class leaves a trailing space, and a non-empty well-spaced one gives a well-spaced class |
| Card.PartsOnDefault | src/components/card/Card.tsx:94-150 | header, body and footer with the default empty class are their fixed tokens followed by a trailing space |
| Card.PartsKeepCallerTokens | src/components/card/Card.tsx:94-150 | header, body and footer list their fixed tokens and then the caller's tokens |
| Card.TextClasses | src/components/card/Card.tsx:104-109 | the title and subtitle classes are their single tokens, single spaced |
| Card.RenderHeader | src/components/card/Card.tsx:87-119 | the header shows the title block iff the title or the subtitle is truthy, otherwise its children; inside the block, each line is present iff its text is truthy |
| Card.TitlesHideChildren | src/components/card/Card.tsx:101-116 | with a truthy title or subtitle, changing the header's children changes nothing rendered |
| Card.EmptyTitlesShowChildren | src/components/card/Card.tsx:101-116 | empty or missing title and subtitle render the children |

## Left out

- JSX and DOM markup, React rendering, and the `{...props}` passthrough of native attributes are not modelled. The model keeps only the computed classes, the disabled flag, the ids and the choice of what is rendered.
- The spinner's SVG geometry is left out. The content of icons, children, titles and subtitles is treated as opaque: icons and children are values of a type parameter, and titles, subtitles, labels and helper texts are strings.
- `Math.random().toString(36).substr(2, 9)` is not modelled. The id suffix it produces is a parameter of `Input.Render` and `Input.FieldId`.
- There is no error path. The option types are closed unions, modelled as datatypes, so every table lookup is total.
- The `text-gray-400 text-lg` span that wraps each input icon inside its container is not modelled; the model keeps the container's class and the icon.
- Tailwind semantics are not modelled: what a class means, how conflicting classes resolve, and what the `first:`/`last:` variants select.
- The Card's own rendered element carries only `ClassName` and its children. Its markup is not modelled separately.
- Storybook stories, the demo app, the build configuration and the package's re-export file with its version constant contain no resolver logic and are not part of this model.
- Absent and falsy values are merged. A node prop (icon, children) that is absent or falsy is `None`. An absent `disabled` is `false`. An absent label, helper text, title, subtitle or id is `None`, and the empty string behaves like it. This loses one React behaviour: a `0` given as children or as an icon is rendered as the text "0" (Button.tsx:138-140, Input.tsx:120 and :137), while the model renders nothing for it, because `0` is not a value of the node type.

Behaviours of the code worth knowing:

- The resolvers never de-duplicate. A hoverable and clickable card lists `hover:shadow-lg` and `hover:-translate-y-1` twice each, and the default md card lists `rounded-lg` twice: `Card.HoverShadowCount`, `Card.TranslateCount`, `Card.RoundedCount`.
- The filtered resolvers have no leading, trailing or doubled space when the caller's class is well spaced (`ClassExact`). The header, body and footer join without filtering, so the default empty class leaves a trailing space: `Card.PartsOnDefault`.
- A generated input id is redrawn on every render. Within one render the label and the field share the same id: `Input.GeneratedId`, `Input.Render`.

=== FILE: button.dfy ===
/** The Button component: its class-string resolver, its disabled rule and
    its choice between the loading spinner and the caller's content. */
module Button {
  import opened Wrappers
  import opened ClassNames

  datatype Variant = Primary | Secondary | Tertiary | Danger | Success | Warning
  datatype Size = Sm | Md | Lg | Xl

  /** The props the component reads.  Icons and children are opaque nodes of
      type `N`; `None` stands for an absent (or falsy) node. */
  datatype ButtonProps<N> = ButtonProps(
    variant: Option<Variant>,
    size: Option<Size>,
    loading: Option<bool>,
    fullWidth: Option<bool>,
    leftIcon: Option<N>,
    rightIcon: Option<N>,
    children: Option<N>,
    disabled: bool,
    className: Option<string>)

  // Destructuring defaults.
  function VariantOf<N>(p: ButtonProps<N>): Variant { p.variant.GetOr(Primary) }
  function SizeOf<N>(p: ButtonProps<N>): Size { p.size.GetOr(Md) }
  function Loading<N>(p: ButtonProps<N>): bool { p.loading.GetOr(false) }
  function FullWidth<N>(p: ButtonProps<N>): bool { p.fullWidth.GetOr(false) }
  function Extra<N>(p: ButtonProps<N>): string { p.className.GetOr("") }

  // ---------------------------------------------------------------------------
  // Constant tables, token by token; joined by spaces they are the source's strings.

  const BaseTokens: seq<string> := [
    "inline-flex", "items-center", "justify-center",
    "font-medium", "rounded-md",
    "focus:outline-none", "focus:ring-2", "focus:ring-offset-2",
    "transition-all", "duration-200", "ease-in-out",
    "border", "border-transparent",
    "cursor-pointer",
    "select-none"]

  function SizeTokens(s: Size): seq<string> {
    match s
    case Sm => ["px-3", "py-1.5", "text-sm", "gap-1.5"]
    case Md => ["px-4", "py-2", "text-base", "gap-2"]
    case Lg => ["px-6", "py-3", "text-lg", "gap-2.5"]
    case Xl => ["px-8", "py-4", "text-xl", "gap-3"]
  }

  function VariantTokens(v: Variant): seq<string> {
    match v
    case Primary =>
      ["bg-blue-600", "text-white", "hover:bg-blue-700", "focus:ring-blue-500",
       "active:bg-blue-800", "disabled:bg-blue-300"]
    case Secondary =>
      ["bg-gray-300", "text-gray-900", "border-gray-300", "hover:bg-gray-400", "focus:ring-gray-500",
       "active:bg-gray-300", "disabled:bg-gray-50", "disabled:text-gray-400"]
    case Tertiary =>
      ["bg-transparent", "text-gray-700", "hover:bg-gray-100", "focus:ring-gray-500",
       "active:bg-gray-200", "disabled:text-gray-400"]
    case Danger =>
      ["bg-red-600", "text-white", "hover:bg-red-700", "focus:ring-red-500",
       "active:bg-red-800", "disabled:bg-red-300"]
    case Success =>
      ["bg-green-600", "text-white", "hover:bg-green-700", "focus:ring-green-500",
       "active:bg-green-800", "disabled:bg-green-300"]
    case Warning =>
      ["bg-yellow-500", "text-white", "hover:bg-yellow-600", "focus:ring-yellow-500",
       "active:bg-yellow-700", "disabled:bg-yellow-300"]
  }

  const BlockedTokens: seq<string> := ["cursor-not-allowed", "opacity-60"]

  const BaseStyle: string := JoinAll(BaseTokens)
  function SizeStyle(s: Size): string { JoinAll(SizeTokens(s)) }
  function VariantStyle(v: Variant): string { JoinAll(VariantTokens(v)) }

  // ---------------------------------------------------------------------------
  // The resolver, as the component computes it.

  /** `modifierStyles`: the three flag-gated fragments, filtered and joined. */
  function Modifiers(fullWidth: bool, loading: bool, disabled: bool): string {
    JoinNonEmpty([
      if fullWidth then "w-full" else "",
      if loading || disabled then JoinAll(BlockedTokens) else "",
      if loading then "pointer-events-none" else ""])
  }

  function Segments<N>(p: ButtonProps<N>): seq<string> {
    [BaseStyle, SizeStyle(SizeOf(p)), VariantStyle(VariantOf(p)),
     Modifiers(FullWidth(p), Loading(p), p.disabled), Extra(p)]
  }

  /** `finalClassName`. */
  function ClassName<N>(p: ButtonProps<N>): string {
    JoinNonEmpty(Segments(p))
  }

  // ---------------------------------------------------------------------------
  // The class list the resolver is meant to produce, stated token by token.

  function ModifierTokens(fullWidth: bool, loading: bool, disabled: bool): seq<string> {
    (if fullWidth then ["w-full"] else [])
    + ((if loading || disabled then BlockedTokens else [])
    + (if loading then ["pointer-events-none"] else []))
  }

  function ExpectedTokens<N>(p: ButtonProps<N>): seq<string> {
    BaseTokens + (SizeTokens(SizeOf(p)) + (VariantTokens(VariantOf(p))
    + (ModifierTokens(FullWidth(p), Loading(p), p.disabled) + Tokens(Extra(p)))))
  }

  /** Every table entry is a list of single class tokens. */
  lemma BaseTable()
    ensures AllTokens(BaseTokens) && AllTokens(BlockedTokens)
  {
  }

  lemma SizeTable(s: Size)
    ensures AllTokens(SizeTokens(s)) && |SizeTokens(s)| == 4
  {
  }

  // The variant table is checked in two halves only to keep each proof
  // obligation small for the solver.
  lemma VariantTable(v: Variant)
    ensures AllTokens(VariantTokens(v)) && |VariantTokens(v)| > 0
  {
    if v == Primary || v == Secondary || v == Tertiary {
      LightVariantTable(v);
    } else {
      StrongVariantTable(v);
    }
  }

  lemma LightVariantTable(v: Variant)
    requires v == Primary || v == Secondary || v == Tertiary
    ensures AllTokens(VariantTokens(v)) && |VariantTokens(v)| > 0
  {
  }

  lemma StrongVariantTable(v: Variant)
    requires v == Danger || v == Success || v == Warning
    ensures AllTokens(VariantTokens(v)) && |VariantTokens(v)| > 0
  {
  }

  lemma ModifierSegments(fullWidth: bool, loading: bool, disabled: bool)
    ensures Tokens(Modifiers(fullWidth, loading, disabled)) == ModifierTokens(fullWidth, loading, disabled)
    ensures WellSpaced(Modifiers(fullWidth, loading, disabled))
  {
    var parts := [
      if fullWidth then "w-full" else "",
      if loading || disabled then JoinAll(BlockedTokens) else "",
      if loading then "pointer-events-none" else ""];
    BaseTable();
    WordsOf(BlockedTokens);
    SingleToken("w-full");
    SingleToken("pointer-events-none");
    EmptyHasNoTokens();
    FilteredJoin3(parts);
    FilteredSpacing3(parts[0], parts[1], parts[2]);
  }

  lemma SegmentFacts<N>(p: ButtonProps<N>)
    ensures TokensOfEach(Segments(p)) == ExpectedTokens(p)
    ensures WellSpaced(BaseStyle) && WellSpaced(SizeStyle(SizeOf(p))) && WellSpaced(VariantStyle(VariantOf(p)))
    ensures WellSpaced(Modifiers(FullWidth(p), Loading(p), p.disabled))
    ensures Tokens(ClassName(p)) == ExpectedTokens(p)
  {
    BaseTable();
    SizeTable(SizeOf(p));
    VariantTable(VariantOf(p));
    WordsOf(BaseTokens);
    WordsOf(SizeTokens(SizeOf(p)));
    WordsOf(VariantTokens(VariantOf(p)));
    ModifierSegments(FullWidth(p), Loading(p), p.disabled);
    FilteredJoin5(Segments(p));
    TokensJoinNonEmpty(Segments(p));
  }

  /** The final class lists the base, size, variant and modifier tokens and then
      the caller's tokens, in that order, none lost, added or reordered. */
  lemma ClassTokens<N>(p: ButtonProps<N>)
    ensures Tokens(ClassName(p)) == ExpectedTokens(p)
  {
    SegmentFacts(p);
  }

  /** With a well-spaced caller class (in particular the default `""`), the
      final class is exactly the expected tokens joined by single spaces: no
      leading, trailing or doubled space. */
  lemma ClassExact<N>(p: ButtonProps<N>)
    requires WellSpaced(Extra(p))
    ensures ClassName(p) == JoinAll(ExpectedTokens(p))
    ensures WellSpaced(ClassName(p))
  {
    SegmentFacts(p);
    FilteredSpacing5(BaseStyle, SizeStyle(SizeOf(p)), VariantStyle(VariantOf(p)),
      Modifiers(FullWidth(p), Loading(p), p.disabled), Extra(p));
    ExactFromTokens(ClassName(p), ExpectedTokens(p));
  }

  /** The caller's class always comes last; an empty one adds nothing, not
      even a space. */
  lemma ExtraLast<N>(p: ButtonProps<N>)
    ensures Extra(p) == "" ==> ClassName(p) == JoinNonEmpty(Segments(p)[..4])
    ensures Extra(p) != "" ==> ClassName(p) == JoinNonEmpty(Segments(p)[..4]) + " " + Extra(p)
  {
    var segs := Segments(p);
    assert segs == segs[..4] + [Extra(p)];
    BaseTable();
    WordsOf(BaseTokens);
    assert BaseStyle != "" by { assert Tokens(BaseStyle) != []; EmptyHasNoTokens(); }
    DropEmptyKeeps(segs[..4]);
    assert segs[..4][0] in DropEmpty(segs[..4]);
    if Extra(p) == "" {
      JoinNonEmptyEmptyLast(segs[..4]);
    } else {
      JoinNonEmptyLast(segs[..4], Extra(p));
    }
  }

  /** Omitting an option is the same as passing its documented default, each
      option on its own whatever the others are, and all of them together. */
  lemma OmittedIsDefault<N>(p: ButtonProps<N>)
    ensures Render(p.(variant := None)) == Render(p.(variant := Some(Primary)))
    ensures Render(p.(size := None)) == Render(p.(size := Some(Md)))
    ensures Render(p.(loading := None)) == Render(p.(loading := Some(false)))
    ensures Render(p.(fullWidth := None)) == Render(p.(fullWidth := Some(false)))
    ensures Render(p.(className := None)) == Render(p.(className := Some("")))
    ensures ClassName(p.(variant := None, size := None, loading := None, fullWidth := None, className := None))
         == ClassName(p.(variant := Some(Primary), size := Some(Md), loading := Some(false),
                          fullWidth := Some(false), className := Some("")))
  {
  }

  /** Every variant contributes its own token list. */
  lemma VariantsDistinct(v: Variant, w: Variant)
    requires v != w
    ensures VariantTokens(v) != VariantTokens(w)
  {
    VariantTable(v);
    VariantTable(w);
    assert VariantTokens(v)[0] != VariantTokens(w)[0];
  }

  // ---------------------------------------------------------------------------
  // Flag-gated tokens.

  /** True when no fixed table the resolver consults holds `t`. */
  predicate NotInTables(t: string, s: Size, v: Variant) {
    t !in BaseTokens && t !in SizeTokens(s) && t !in VariantTokens(v)
  }

  lemma WFullNotInTables(s: Size, v: Variant)
    ensures NotInTables("w-full", s, v)
  {
  }

  lemma CursorNotInTables(s: Size, v: Variant)
    ensures NotInTables("cursor-not-allowed", s, v)
  {
  }

  lemma OpacityNotInTables(s: Size, v: Variant)
    ensures NotInTables("opacity-60", s, v)
  {
  }

  lemma PointerNotInTables(s: Size, v: Variant)
    ensures NotInTables("pointer-events-none", s, v)
  {
  }

  /** `w-full` is present iff fullWidth is on (or the caller supplied it). */
  lemma FullWidthToken<N>(p: ButtonProps<N>)
    ensures "w-full" in Tokens(ClassName(p)) <==> FullWidth(p) || "w-full" in Tokens(Extra(p))
  {
    ClassTokens(p);
    WFullNotInTables(SizeOf(p), VariantOf(p));
    InTail("w-full", BaseTokens, SizeTokens(SizeOf(p)), VariantTokens(VariantOf(p)),
      ModifierTokens(FullWidth(p), Loading(p), p.disabled), Tokens(Extra(p)));
  }

  /** The not-allowed cursor and reduced opacity are present iff the button is
      loading or disabled (or the caller supplied them). */
  lemma BlockedTokensPresent<N>(p: ButtonProps<N>)
    ensures "cursor-not-allowed" in Tokens(ClassName(p))
        <==> Loading(p) || p.disabled || "cursor-not-allowed" in Tokens(Extra(p))
    ensures "opacity-60" in Tokens(ClassName(p))
        <==> Loading(p) || p.disabled || "opacity-60" in Tokens(Extra(p))
  {
    ClassTokens(p);
    CursorNotInTables(SizeOf(p), VariantOf(p));
    OpacityNotInTables(SizeOf(p), VariantOf(p));
  }

  /** `pointer-events-none` is present iff loading (or the caller supplied it). */
  lemma PointerEventsToken<N>(p: ButtonProps<N>)
    ensures "pointer-events-none" in Tokens(ClassName(p))
        <==> Loading(p) || "pointer-events-none" in Tokens(Extra(p))
  {
    ClassTokens(p);
    PointerNotInTables(SizeOf(p), VariantOf(p));
  }

  /** The fixed tables, looked up for one size and variant. */
  function TableTokens(s: Size, v: Variant): seq<string> {
    BaseTokens + (SizeTokens(s) + VariantTokens(v))
  }

  /** The width flag only decides whether `w-full` leads the gated tokens. */
  lemma ModifierWidth(loading: bool, disabled: bool)
    ensures ModifierTokens(true, loading, disabled) == ["w-full"] + ModifierTokens(false, loading, disabled)
  {
    var x := (if loading || disabled then BlockedTokens else [])
           + (if loading then ["pointer-events-none"] else []);
    assert ModifierTokens(false, loading, disabled) == x;
  }

  /** Turning fullWidth on inserts `w-full` right after the table tokens and
      changes nothing else. */
  lemma FullWidthOnlyInserts<N>(off: ButtonProps<N>, on: ButtonProps<N>)
    requires !FullWidth(off) && on == off.(fullWidth := Some(true))
    ensures var rest := ModifierTokens(false, Loading(off), off.disabled) + Tokens(Extra(off));
            && Tokens(ClassName(off)) == TableTokens(SizeOf(off), VariantOf(off)) + rest
            && Tokens(ClassName(on)) == TableTokens(SizeOf(off), VariantOf(off)) + (["w-full"] + rest)
  {
    var b, s, v := BaseTokens, SizeTokens(SizeOf(off)), VariantTokens(VariantOf(off));
    var m, e := ModifierTokens(false, Loading(off), off.disabled), Tokens(Extra(off));
    ClassTokens(off);
    ClassTokens(on);
    ModifierWidth(Loading(off), off.disabled);
    InsertAfter(b, s, v, m, e, "w-full");
  }

  // ---------------------------------------------------------------------------
  // Rendering decisions.

  /** One piece of the button's content. */
  datatype Piece<N> = Spinner | Text(text: string) | IconSpan(icon: N) | Child(node: N)

  datatype ButtonView<N> = ButtonView(className: string, disabled: bool, content: seq<Piece<N>>)

  function OptionalPiece<N>(o: Option<N>, isIcon: bool): seq<Piece<N>> {
    match o
    case None => []
    case Some(x) => if isIcon then [IconSpan(x)] else [Child(x)]
  }

  /** The content: the fixed spinner and label while loading, otherwise the
      left icon, the children and the right icon, each only when present. */
  function Content<N>(p: ButtonProps<N>): (c: seq<Piece<N>>)
    ensures Spinner in c <==> Loading(p)
    ensures Loading(p) ==> c == [Spinner, Text("Loading...")]
    ensures !Loading(p) ==> |c| == |OptionalPiece(p.leftIcon, true)| + |OptionalPiece(p.children, false)|
                                  + |OptionalPiece(p.rightIcon, true)|
    ensures !Loading(p) && p.leftIcon.Some? ==> c[0] == IconSpan(p.leftIcon.value)
    ensures !Loading(p) && p.rightIcon.Some? ==> c[|c| - 1] == IconSpan(p.rightIcon.value)
    ensures !Loading(p) && p.children.Some? ==> Child(p.children.value) in c
    ensures forall i :: 0 <= i < |c| && c[i].Child? ==> p.children == Some(c[i].node)
  {
    if Loading(p) then [Spinner, Text("Loading...")]
    else OptionalPiece(p.leftIcon, true) + OptionalPiece(p.children, false) + OptionalPiece(p.rightIcon, true)
  }

  /** What the button renders; `DisabledMatchesClass` relates its parts. */
  function Render<N>(p: ButtonProps<N>): ButtonView<N> {
    ButtonView(ClassName(p), p.disabled || Loading(p), Content(p))
  }

  /** The `disabled` attribute and the not-allowed cursor come from the same
      condition, so (unless the caller supplies the token) a rendered button
      lists the `cursor-not-allowed` token exactly when it is disabled; a button disabled only by
      loading shows the spinner and `Loading...` in place of its content. */
  lemma DisabledMatchesClass<N>(p: ButtonProps<N>)
    ensures "cursor-not-allowed" !in Tokens(Extra(p)) ==>
              (Render(p).disabled <==> "cursor-not-allowed" in Tokens(Render(p).className))
    ensures Render(p).disabled && !p.disabled ==> Render(p).content == [Spinner, Text("Loading...")]
  {
    BlockedTokensPresent(p);
  }

  /** While loading, the caller's children and icons have no effect on what is
      rendered, and the button cannot be activated. */
  lemma LoadingIgnoresContent<N>(p: ButtonProps<N>, left: Option<N>, right: Option<N>, children: Option<N>)
    requires Loading(p)
    ensures var q := p.(leftIcon := left, rightIcon := right, children := children);
            Render(q) == Render(p) && Render(q).disabled
  {
  }

  /** The resolver on the danger variant with everything else left out. */
  lemma DangerExample<N>(p: ButtonProps<N>)
    requires p.variant == Some(Danger) && p.size.None? && p.loading.None? && p.fullWidth.None?
    requires p.className.None? && !p.disabled
    ensures ClassName(p) == JoinAll(BaseTokens + (SizeTokens(Md) + VariantTokens(Danger)))
    ensures !Render(p).disabled && Spinner !in Render(p).content
  {
    EmptyHasNoTokens();
    ClassExact(p);
    EmptyTail(BaseTokens, SizeTokens(Md), VariantTokens(Danger));
  }
}

=== FILE: card.dfy ===
/** The Card component and its Header, Body and Footer parts: their class
    strings and the header's choice between the title block and its children. */
module Card {
  import opened Wrappers
  import opened ClassNames

  datatype Variant = Default | Outlined | Elevated
  datatype Size = Sm | Md | Lg
  datatype Padding = PadNone | PadSm | PadMd | PadLg

  /** The props the card's resolver reads; an omitted option is `None`. */
  datatype CardProps = CardProps(
    variant: Option<Variant>,
    size: Option<Size>,
    hoverable: Option<bool>,
    clickable: Option<bool>,
    padding: Option<Padding>,
    className: Option<string>)

  // Destructuring defaults.
  function VariantOf(p: CardProps): Variant { p.variant.GetOr(Default) }
  function SizeOf(p: CardProps): Size { p.size.GetOr(Md) }
  function Hoverable(p: CardProps): bool { p.hoverable.GetOr(false) }
  function Clickable(p: CardProps): bool { p.clickable.GetOr(false) }
  function PaddingOf(p: CardProps): Padding { p.padding.GetOr(PadMd) }
  function Extra(p: CardProps): string { p.className.GetOr("") }

  // ---------------------------------------------------------------------------
  // Constant tables, token by token; joined by spaces they are the source's strings.

  const BaseTokens: seq<string> :=
    ["rounded-lg", "transition-all", "duration-200", "ease-in-out", "overflow-hidden"]

  function VariantTokens(v: Variant): seq<string> {
    match v
    case Default => ["bg-white", "border", "border-gray-200"]
    case Outlined => ["bg-white", "border-2", "border-gray-300"]
    case Elevated => ["bg-white", "shadow-md", "border", "border-gray-100"]
  }

  /** The size only sets the corner rounding. */
  function Rounding(s: Size): string {
    match s
    case Sm => "rounded-md"
    case Md => "rounded-lg"
    case Lg => "rounded-xl"
  }

  function PaddingToken(pad: Padding): string {
    match pad
    case PadNone => "p-0"
    case PadSm => "p-3"
    case PadMd => "p-4"
    case PadLg => "p-6"
  }

  const HoverTokens: seq<string> := ["hover:shadow-lg", "hover:-translate-y-1"]
  const ClickTokens: seq<string> :=
    ["cursor-pointer", "hover:shadow-lg", "hover:-translate-y-1", "active:translate-y-0", "active:shadow-md"]

  const BaseStyle: string := JoinAll(BaseTokens)
  function VariantStyle(v: Variant): string { JoinAll(VariantTokens(v)) }

  // ---------------------------------------------------------------------------
  // The card's resolver, as the component computes it.

  /** `interactiveStyles`: the four flag-gated fragments, filtered and joined.
      The border hover colour only applies to the outlined and default variants. */
  function InteractiveParts(hoverable: bool, clickable: bool, v: Variant): seq<string> {
    [if hoverable then JoinAll(HoverTokens) else "",
     if clickable then JoinAll(ClickTokens) else "",
     if (hoverable || clickable) && v == Outlined then "hover:border-gray-400" else "",
     if (hoverable || clickable) && v == Default then "hover:border-gray-300" else ""]
  }

  function Interactive(hoverable: bool, clickable: bool, v: Variant): string {
    JoinNonEmpty(InteractiveParts(hoverable, clickable, v))
  }

  function Segments(p: CardProps): seq<string> {
    [BaseStyle, VariantStyle(VariantOf(p)), Rounding(SizeOf(p)), PaddingToken(PaddingOf(p)),
     Interactive(Hoverable(p), Clickable(p), VariantOf(p)), Extra(p)]
  }

  /** `cardClassName`. */
  function ClassName(p: CardProps): string {
    JoinNonEmpty(Segments(p))
  }

  // ---------------------------------------------------------------------------
  // The class list the resolver is meant to produce, stated token by token.

  function InteractiveTokens(hoverable: bool, clickable: bool, v: Variant): seq<string> {
    (if hoverable then HoverTokens else [])
    + ((if clickable then ClickTokens else [])
    + ((if (hoverable || clickable) && v == Outlined then ["hover:border-gray-400"] else [])
    + (if (hoverable || clickable) && v == Default then ["hover:border-gray-300"] else [])))
  }

  function ExpectedTokens(p: CardProps): seq<string> {
    BaseTokens + (VariantTokens(VariantOf(p)) + ([Rounding(SizeOf(p))] + ([PaddingToken(PaddingOf(p))]
    + (InteractiveTokens(Hoverable(p), Clickable(p), VariantOf(p)) + Tokens(Extra(p))))))
  }

  /** Every table entry is a list of single class tokens. */
  lemma FixedTables()
    ensures AllTokens(BaseTokens) && AllTokens(HoverTokens) && AllTokens(ClickTokens)
  {
  }

  lemma VariantTable(v: Variant)
    ensures AllTokens(VariantTokens(v))
  {
  }

  lemma SingleTables(s: Size, pad: Padding)
    ensures IsToken(Rounding(s)) && IsToken(PaddingToken(pad))
  {
  }

  lemma InteractiveSegment(hoverable: bool, clickable: bool, v: Variant)
    ensures Tokens(Interactive(hoverable, clickable, v)) == InteractiveTokens(hoverable, clickable, v)
    ensures WellSpaced(Interactive(hoverable, clickable, v))
  {
    var interactive := hoverable || clickable;
    FixedTables();
    GatedJoin4(hoverable, HoverTokens, clickable, ClickTokens,
      interactive && v == Outlined, "hover:border-gray-400", interactive && v == Default, "hover:border-gray-300");
  }

  lemma SegmentFacts(p: CardProps)
    ensures WellSpaced(BaseStyle) && WellSpaced(VariantStyle(VariantOf(p)))
    ensures WellSpaced(Rounding(SizeOf(p))) && WellSpaced(PaddingToken(PaddingOf(p)))
    ensures WellSpaced(Interactive(Hoverable(p), Clickable(p), VariantOf(p)))
    ensures Tokens(ClassName(p)) == ExpectedTokens(p)
  {
    FixedTables();
    VariantTable(VariantOf(p));
    SingleTables(SizeOf(p), PaddingOf(p));
    WordsOf(BaseTokens);
    WordsOf(VariantTokens(VariantOf(p)));
    SingleToken(Rounding(SizeOf(p)));
    SingleToken(PaddingToken(PaddingOf(p)));
    InteractiveSegment(Hoverable(p), Clickable(p), VariantOf(p));
    FilteredJoin6(Segments(p));
  }

  /** The card's class lists the base, variant, rounding, padding and
      interactive tokens and then the caller's tokens, in that order, none
      lost, added, merged or reordered. */
  lemma ClassTokens(p: CardProps)
    ensures Tokens(ClassName(p)) == ExpectedTokens(p)
  {
    SegmentFacts(p);
  }

  /** With a well-spaced caller class (in particular the default `""`), the
      card's class is exactly the expected tokens joined by single spaces. */
  lemma ClassExact(p: CardProps)
    requires WellSpaced(Extra(p))
    ensures ClassName(p) == JoinAll(ExpectedTokens(p))
    ensures WellSpaced(ClassName(p))
  {
    SegmentFacts(p);
    FilteredSpacing6(BaseStyle, VariantStyle(VariantOf(p)), Rounding(SizeOf(p)), PaddingToken(PaddingOf(p)),
      Interactive(Hoverable(p), Clickable(p), VariantOf(p)), Extra(p));
    ExactFromTokens(ClassName(p), ExpectedTokens(p));
  }

  /** Omitting an option is the same as passing its documented default, each
      option on its own whatever the others are, and all of them together. */
  lemma OmittedIsDefault(p: CardProps)
    ensures ClassName(p.(variant := None)) == ClassName(p.(variant := Some(Default)))
    ensures ClassName(p.(size := None)) == ClassName(p.(size := Some(Md)))
    ensures ClassName(p.(hoverable := None)) == ClassName(p.(hoverable := Some(false)))
    ensures ClassName(p.(clickable := None)) == ClassName(p.(clickable := Some(false)))
    ensures ClassName(p.(padding := None)) == ClassName(p.(padding := Some(PadMd)))
    ensures ClassName(p.(className := None)) == ClassName(p.(className := Some("")))
    ensures ClassName(CardProps(None, None, None, None, None, None))
         == ClassName(CardProps(Some(Default), Some(Md), Some(false), Some(false), Some(PadMd), Some("")))
  {
  }

  /** Changing the size swaps the rounding token and leaves every other token
      where it was. */
  lemma SizeOnlyChangesRounding(p: CardProps, q: CardProps, s: Size)
    requires q == p.(size := Some(s))
    ensures var before := BaseTokens + VariantTokens(VariantOf(p));
            var after := [PaddingToken(PaddingOf(p))] + (InteractiveTokens(Hoverable(p), Clickable(p), VariantOf(p)) + Tokens(Extra(p)));
            && Tokens(ClassName(p)) == before + ([Rounding(SizeOf(p))] + after)
            && Tokens(ClassName(q)) == before + ([Rounding(s)] + after)
  {
    var a, b := BaseTokens, VariantTokens(VariantOf(p));
    var after := [PaddingToken(PaddingOf(p))] + (InteractiveTokens(Hoverable(p), Clickable(p), VariantOf(p)) + Tokens(Extra(p)));
    ClassTokens(p);
    ClassTokens(q);
    AppendAssoc(a, b, [Rounding(SizeOf(p))] + after);
    AppendAssoc(a, b, [Rounding(s)] + after);
  }

  /** A card that is neither hoverable nor clickable has no interactive
      fragment at all, whatever its variant. */
  lemma StaticCard(p: CardProps)
    requires !Hoverable(p) && !Clickable(p)
    ensures Interactive(Hoverable(p), Clickable(p), VariantOf(p)) == ""
    ensures Tokens(ClassName(p)) == BaseTokens + (VariantTokens(VariantOf(p))
              + ([Rounding(SizeOf(p))] + ([PaddingToken(PaddingOf(p))] + Tokens(Extra(p)))))
  {
    var v := VariantOf(p);
    assert InteractiveTokens(false, false, v) == [];
    InteractiveSegment(false, false, v);
    assert Interactive(false, false, v) == "" by {
      WellSpacedJoinTokens(Interactive(false, false, v));
    }
    ClassTokens(p);
    SkipEmpty(BaseTokens, VariantTokens(v), [Rounding(SizeOf(p))], [PaddingToken(PaddingOf(p))], Tokens(Extra(p)));
  }

  // Re-brackets a sum of sequences; it exists only so that the solver does
  // not have to find this step inside a larger proof.
  lemma SkipEmpty(a: seq<string>, b: seq<string>, c: seq<string>, d: seq<string>, f: seq<string>)
    ensures a + (b + (c + (d + ([] + f)))) == a + (b + (c + (d + f)))
  {
    assert [] + f == f;
  }

  // ---------------------------------------------------------------------------
  // Flag-gated tokens and the duplicates the resolver keeps.

  /** True when no fixed table the card's resolver consults holds `t`. */
  predicate NotInTables(t: string, v: Variant, s: Size, pad: Padding) {
    t !in BaseTokens && t !in VariantTokens(v) && t != Rounding(s) && t != PaddingToken(pad)
  }

  /** The number of times `t` is listed in the card's class. */
  function Occurrences(p: CardProps, t: string): nat {
    Count(Tokens(ClassName(p)), t)
  }

  lemma ShadowNotInTables(v: Variant, s: Size, pad: Padding)
    ensures NotInTables("hover:shadow-lg", v, s, pad)
  {
  }

  lemma ShadowOnceInHover()
    ensures Count(HoverTokens, "hover:shadow-lg") == 1
  {
    assert HoverTokens == ["hover:shadow-lg"] + ["hover:-translate-y-1"];
    CountLeading("hover:shadow-lg", ["hover:-translate-y-1"]);
  }

  lemma ShadowOnceInClick()
    ensures Count(ClickTokens, "hover:shadow-lg") == 1
  {
    var rest := ["hover:-translate-y-1", "active:translate-y-0", "active:shadow-md"];
    assert ClickTokens == ["cursor-pointer"] + (["hover:shadow-lg"] + rest);
    CountConcat(["cursor-pointer"], ["hover:shadow-lg"] + rest, "hover:shadow-lg");
    CountSingle("cursor-pointer", "hover:shadow-lg");
    CountLeading("hover:shadow-lg", rest);
  }

  /** Within the interactive fragment `hover:shadow-lg` is listed once per
      interaction flag. */
  lemma ShadowInInteractive(h: bool, c: bool, v: Variant)
    ensures Count(InteractiveTokens(h, c, v), "hover:shadow-lg") == (if h then 1 else 0) + (if c then 1 else 0)
  {
    var t := "hover:shadow-lg";
    ShadowOnceInHover();
    ShadowOnceInClick();
    var o := if (h || c) && v == Outlined then ["hover:border-gray-400"] else [];
    var d := if (h || c) && v == Default then ["hover:border-gray-300"] else [];
    assert t !in o && t !in d;
    CountSum4(t, if h then HoverTokens else [], if c then ClickTokens else [], o, d);
  }

  /** `hover:shadow-lg` is listed once per interaction flag: a card that is
      both hoverable and clickable carries it twice. */
  lemma HoverShadowCount(p: CardProps)
    ensures Occurrences(p, "hover:shadow-lg")
         == (if Hoverable(p) then 1 else 0) + (if Clickable(p) then 1 else 0) + Count(Tokens(Extra(p)), "hover:shadow-lg")
  {
    var v, h, c := VariantOf(p), Hoverable(p), Clickable(p);
    ClassTokens(p);
    ShadowNotInTables(v, SizeOf(p), PaddingOf(p));
    ShadowInInteractive(h, c, v);
    CountSingle(Rounding(SizeOf(p)), "hover:shadow-lg");
    CountSingle(PaddingToken(PaddingOf(p)), "hover:shadow-lg");
    CountSum6("hover:shadow-lg", BaseTokens, VariantTokens(v), [Rounding(SizeOf(p))], [PaddingToken(PaddingOf(p))],
      InteractiveTokens(h, c, v), Tokens(Extra(p)));
  }

  lemma RoundedOnceInBase()
    ensures Count(BaseTokens, "rounded-lg") == 1
  {
    var rest := ["transition-all", "duration-200", "ease-in-out", "overflow-hidden"];
    assert BaseTokens == ["rounded-lg"] + rest;
    CountLeading("rounded-lg", rest);
  }

  lemma RoundedNowhereElse(v: Variant, pad: Padding, h: bool, c: bool)
    ensures "rounded-lg" !in VariantTokens(v) && "rounded-lg" != PaddingToken(pad)
    ensures "rounded-lg" !in InteractiveTokens(h, c, v)
  {
  }

  /** The base style already rounds the corners with `rounded-lg`, so the
      medium size (the default) lists it a second time. */
  lemma RoundedCount(p: CardProps)
    ensures Occurrences(p, "rounded-lg")
         == 1 + (if SizeOf(p) == Md then 1 else 0) + Count(Tokens(Extra(p)), "rounded-lg")
  {
    var v := VariantOf(p);
    ClassTokens(p);
    RoundedOnceInBase();
    RoundedNowhereElse(v, PaddingOf(p), Hoverable(p), Clickable(p));
    assert Rounding(SizeOf(p)) == "rounded-lg" <==> SizeOf(p) == Md;
    CountSingle(Rounding(SizeOf(p)), "rounded-lg");
    CountSingle(PaddingToken(PaddingOf(p)), "rounded-lg");
    CountSum6("rounded-lg", BaseTokens, VariantTokens(v), [Rounding(SizeOf(p))], [PaddingToken(PaddingOf(p))],
      InteractiveTokens(Hoverable(p), Clickable(p), v), Tokens(Extra(p)));
  }

  lemma TranslateNotInTables(v: Variant, s: Size, pad: Padding)
    ensures NotInTables("hover:-translate-y-1", v, s, pad)
  {
  }

  lemma TranslateOnceInHover()
    ensures Count(HoverTokens, "hover:-translate-y-1") == 1
  {
    var t := "hover:-translate-y-1";
    assert HoverTokens == ["hover:shadow-lg"] + [t];
    CountConcat(["hover:shadow-lg"], [t], t);
    CountSingle("hover:shadow-lg", t);
    CountSingle(t, t);
  }

  lemma TranslateOnceInClick()
    ensures Count(ClickTokens, "hover:-translate-y-1") == 1
  {
    var t := "hover:-translate-y-1";
    var front, rest := ["cursor-pointer", "hover:shadow-lg"], ["active:translate-y-0", "active:shadow-md"];
    assert ClickTokens == front + ([t] + rest);
    CountConcat(front, [t] + rest, t);
    assert t !in front;
    CountLeading(t, rest);
  }

  /** Within the interactive fragment `hover:-translate-y-1` is listed once per
      interaction flag. */
  lemma TranslateInInteractive(h: bool, c: bool, v: Variant)
    ensures Count(InteractiveTokens(h, c, v), "hover:-translate-y-1") == (if h then 1 else 0) + (if c then 1 else 0)
  {
    var t := "hover:-translate-y-1";
    TranslateOnceInHover();
    TranslateOnceInClick();
    var o := if (h || c) && v == Outlined then ["hover:border-gray-400"] else [];
    var d := if (h || c) && v == Default then ["hover:border-gray-300"] else [];
    assert t !in o && t !in d;
    CountSum4(t, if h then HoverTokens else [], if c then ClickTokens else [], o, d);
  }

  /** `hover:-translate-y-1` is listed once per interaction flag, like
      `hover:shadow-lg`: a card that is both hoverable and clickable carries it twice. */
  lemma TranslateCount(p: CardProps)
    ensures Occurrences(p, "hover:-translate-y-1")
         == (if Hoverable(p) then 1 else 0) + (if Clickable(p) then 1 else 0) + Count(Tokens(Extra(p)), "hover:-translate-y-1")
  {
    var v, h, c, t := VariantOf(p), Hoverable(p), Clickable(p), "hover:-translate-y-1";
    ClassTokens(p);
    TranslateNotInTables(v, SizeOf(p), PaddingOf(p));
    TranslateInInteractive(h, c, v);
    CountSingle(Rounding(SizeOf(p)), t);
    CountSingle(PaddingToken(PaddingOf(p)), t);
    CountSum6(t, BaseTokens, VariantTokens(v), [Rounding(SizeOf(p))], [PaddingToken(PaddingOf(p))],
      InteractiveTokens(h, c, v), Tokens(Extra(p)));
  }

  lemma ActiveNotInTables(v: Variant, s: Size, pad: Padding)
    ensures NotInTables("active:translate-y-0", v, s, pad)
    ensures NotInTables("active:shadow-md", v, s, pad)
  {
  }

  lemma ActiveMembers(h: bool, c: bool, v: Variant)
    ensures "active:translate-y-0" in InteractiveTokens(h, c, v) <==> c
    ensures "active:shadow-md" in InteractiveTokens(h, c, v) <==> c
  {
  }

  /** The pressed-state tokens are present iff the card is clickable (or the
      caller supplied them). */
  lemma ActiveTokens(p: CardProps)
    ensures "active:translate-y-0" in Tokens(ClassName(p))
        <==> Clickable(p) || "active:translate-y-0" in Tokens(Extra(p))
    ensures "active:shadow-md" in Tokens(ClassName(p))
        <==> Clickable(p) || "active:shadow-md" in Tokens(Extra(p))
  {
    var rest := InteractiveTokens(Hoverable(p), Clickable(p), VariantOf(p)) + Tokens(Extra(p));
    ClassTokens(p);
    ActiveNotInTables(VariantOf(p), SizeOf(p), PaddingOf(p));
    ActiveMembers(Hoverable(p), Clickable(p), VariantOf(p));
    InTail("active:translate-y-0", BaseTokens, VariantTokens(VariantOf(p)), [Rounding(SizeOf(p))],
      [PaddingToken(PaddingOf(p))], rest);
    InTail("active:shadow-md", BaseTokens, VariantTokens(VariantOf(p)), [Rounding(SizeOf(p))],
      [PaddingToken(PaddingOf(p))], rest);
  }

  lemma CursorNotInTables(v: Variant, s: Size, pad: Padding)
    ensures NotInTables("cursor-pointer", v, s, pad)
  {
  }

  lemma InteractiveMembers(h: bool, c: bool, v: Variant)
    ensures "cursor-pointer" in InteractiveTokens(h, c, v) <==> c
    ensures "hover:border-gray-400" in InteractiveTokens(h, c, v) <==> (h || c) && v == Outlined
    ensures "hover:border-gray-300" in InteractiveTokens(h, c, v) <==> (h || c) && v == Default
  {
  }

  /** The pointer cursor is present iff the card is clickable (or the caller
      supplied it). */
  lemma CursorToken(p: CardProps)
    ensures "cursor-pointer" in Tokens(ClassName(p)) <==> Clickable(p) || "cursor-pointer" in Tokens(Extra(p))
  {
    ClassTokens(p);
    CursorNotInTables(VariantOf(p), SizeOf(p), PaddingOf(p));
    InteractiveMembers(Hoverable(p), Clickable(p), VariantOf(p));
    InTail("cursor-pointer", BaseTokens, VariantTokens(VariantOf(p)), [Rounding(SizeOf(p))],
      [PaddingToken(PaddingOf(p))], InteractiveTokens(Hoverable(p), Clickable(p), VariantOf(p)) + Tokens(Extra(p)));
  }

  lemma BorderHoverNotInTables(v: Variant, s: Size, pad: Padding)
    ensures NotInTables("hover:border-gray-400", v, s, pad)
    ensures NotInTables("hover:border-gray-300", v, s, pad)
  {
  }

  /** The outlined variant's border hover colour appears iff the card is
      interactive and outlined (or the caller supplied it). */
  lemma OutlinedHoverToken(p: CardProps)
    ensures "hover:border-gray-400" in Tokens(ClassName(p))
        <==> ((Hoverable(p) || Clickable(p)) && VariantOf(p) == Outlined) || "hover:border-gray-400" in Tokens(Extra(p))
  {
    ClassTokens(p);
    BorderHoverNotInTables(VariantOf(p), SizeOf(p), PaddingOf(p));
    InteractiveMembers(Hoverable(p), Clickable(p), VariantOf(p));
    InTail("hover:border-gray-400", BaseTokens, VariantTokens(VariantOf(p)), [Rounding(SizeOf(p))],
      [PaddingToken(PaddingOf(p))], InteractiveTokens(Hoverable(p), Clickable(p), VariantOf(p)) + Tokens(Extra(p)));
  }

  /** The default variant's border hover colour appears iff the card is
      interactive and default (or the caller supplied it); elevated cards get
      neither colour. */
  lemma DefaultHoverToken(p: CardProps)
    ensures "hover:border-gray-300" in Tokens(ClassName(p))
        <==> ((Hoverable(p) || Clickable(p)) && VariantOf(p) == Default) || "hover:border-gray-300" in Tokens(Extra(p))
  {
    ClassTokens(p);
    BorderHoverNotInTables(VariantOf(p), SizeOf(p), PaddingOf(p));
    InteractiveMembers(Hoverable(p), Clickable(p), VariantOf(p));
    InTail("hover:border-gray-300", BaseTokens, VariantTokens(VariantOf(p)), [Rounding(SizeOf(p))],
      [PaddingToken(PaddingOf(p))], InteractiveTokens(Hoverable(p), Clickable(p), VariantOf(p)) + Tokens(Extra(p)));
  }

  // ---------------------------------------------------------------------------
  // Header, Body and Footer: a fixed class and the caller's, joined unfiltered.

  const HeaderTokens: seq<string> :=
    ["border-b", "border-gray-200", "pb-3", "mb-4", "last:mb-0", "last:border-b-0", "last:pb-0"]
  const BodyTokens: seq<string> := ["flex-1"]
  const FooterTokens: seq<string> :=
    ["border-t", "border-gray-200", "pt-3", "mt-4", "first:mt-0", "first:border-t-0", "first:pt-0"]

  /** `[fixed, className].join(" ")`: nothing is filtered out. */
  function PartClass(fixed: seq<string>, extra: string): string {
    JoinAll([JoinAll(fixed), extra])
  }

  function HeaderClass(extra: string): string { PartClass(HeaderTokens, extra) }
  function BodyClass(extra: string): string { PartClass(BodyTokens, extra) }
  function FooterClass(extra: string): string { PartClass(FooterTokens, extra) }

  lemma PartTables()
    ensures AllTokens(HeaderTokens) && AllTokens(BodyTokens) && AllTokens(FooterTokens)
  {
  }

  /** A part's class keeps the fixed tokens and then the caller's; because the
      join is unfiltered, the default empty class leaves a trailing space, and
      only a non-empty well-spaced caller class gives a well-spaced result. */
  lemma PartClassShape(fixed: seq<string>, extra: string)
    requires AllTokens(fixed) && |fixed| > 0
    ensures Tokens(PartClass(fixed, extra)) == fixed + Tokens(extra)
    ensures PartClass(fixed, extra) == JoinAll(fixed) + " " + extra
    ensures extra == "" ==> PartClass(fixed, extra) == JoinAll(fixed) + " "
    ensures extra == "" ==> Tokens(PartClass(fixed, extra)) == fixed
    ensures extra == "" ==> !WellSpaced(PartClass(fixed, extra))
    ensures extra != "" && WellSpaced(extra) ==> WellSpaced(PartClass(fixed, extra))
  {
    var s := JoinAll(fixed);
    WordsOf(fixed);
    PlainJoin2(s, extra);
    JoinAllWellSpaced(fixed);
    if extra == "" {
      EmptyHasNoTokens();
      assert fixed + [] == fixed;
      var r := s + " " + "";
      assert r == s + " ";
      assert r[|r| - 1] == ' ';
    } else if WellSpaced(extra) {
      WellSpacedSeparated(s, extra);
    }
  }

  /** The three parts, on the default empty class: the fixed tokens and a
      trailing space. */
  lemma PartsOnDefault()
    ensures HeaderClass("") == JoinAll(HeaderTokens) + " " && Tokens(HeaderClass("")) == HeaderTokens
    ensures BodyClass("") == JoinAll(BodyTokens) + " " && Tokens(BodyClass("")) == BodyTokens
    ensures FooterClass("") == JoinAll(FooterTokens) + " " && Tokens(FooterClass("")) == FooterTokens
  {
    PartTables();
    PartClassShape(HeaderTokens, "");
    PartClassShape(BodyTokens, "");
    PartClassShape(FooterTokens, "");
  }

  /** The three parts keep the caller's tokens after their own. */
  lemma PartsKeepCallerTokens(extra: string)
    ensures Tokens(HeaderClass(extra)) == HeaderTokens + Tokens(extra)
    ensures Tokens(BodyClass(extra)) == BodyTokens + Tokens(extra)
    ensures Tokens(FooterClass(extra)) == FooterTokens + Tokens(extra)
  {
    PartTables();
    PartClassShape(HeaderTokens, extra);
    PartClassShape(BodyTokens, extra);
    PartClassShape(FooterTokens, extra);
  }

  // ---------------------------------------------------------------------------
  // The header's content.

  const TitleTokens: seq<string> := ["text-lg", "font-semibold", "text-gray-900", "leading-tight"]
  const SubtitleTokens: seq<string> := ["text-sm", "text-gray-600", "mt-1"]
  const TitleClass: string := JoinAll(TitleTokens)
  const SubtitleClass: string := JoinAll(SubtitleTokens)

  /** The title and subtitle classes are their single tokens, single spaced. */
  lemma TextClasses()
    ensures Tokens(TitleClass) == TitleTokens && WellSpaced(TitleClass)
    ensures Tokens(SubtitleClass) == SubtitleTokens && WellSpaced(SubtitleClass)
  {
    assert AllTokens(TitleTokens) && AllTokens(SubtitleTokens);
    WordsOf(TitleTokens);
    WordsOf(SubtitleTokens);
  }

  datatype TextLine = TextLine(className: string, text: string)

  /** Either the title block, holding the lines that are present, or the
      caller's children. */
  datatype HeaderContent<N> =
    | Titles(title: Option<TextLine>, subtitle: Option<TextLine>)
    | Children(children: Option<N>)

  datatype HeaderProps<N> = HeaderProps(
    title: Option<string>,
    subtitle: Option<string>,
    children: Option<N>,
    className: Option<string>)

  datatype HeaderView<N> = HeaderView(className: string, content: HeaderContent<N>)

  /** A title or subtitle line, rendered only when its text is truthy. */
  function LineOf(text: Option<string>, className: string): Option<TextLine> {
    if Truthy(text) then Some(TextLine(className, text.value)) else None
  }

  /** What CardHeader renders. */
  function RenderHeader<N>(h: HeaderProps<N>): (r: HeaderView<N>)
    ensures r.className == HeaderClass(h.className.GetOr(""))
    ensures r.content.Titles? <==> Truthy(h.title) || Truthy(h.subtitle)
    ensures r.content.Children? ==> r.content.children == h.children
    ensures r.content.Titles? ==> (r.content.title.Some? <==> Truthy(h.title))
    ensures r.content.Titles? ==> (r.content.subtitle.Some? <==> Truthy(h.subtitle))
  {
    var content :=
      if Truthy(h.title) || Truthy(h.subtitle)
      then Titles(LineOf(h.title, TitleClass), LineOf(h.subtitle, SubtitleClass))
      else Children(h.children);
    HeaderView(HeaderClass(h.className.GetOr("")), content)
  }

  /** With a title or a subtitle the header's children are not rendered:
      changing them changes nothing. */
  lemma TitlesHideChildren<N>(h: HeaderProps<N>, other: Option<N>)
    requires Truthy(h.title) || Truthy(h.subtitle)
    ensures RenderHeader(h.(children := other)) == RenderHeader(h)
    ensures RenderHeader(h).content.Titles?
  {
  }

  /** Empty title and subtitle strings count as absent: the children render. */
  lemma EmptyTitlesShowChildren<N>(h: HeaderProps<N>)
    requires h.title.GetOr("") == "" && h.subtitle.GetOr("") == ""
    ensures RenderHeader(h).content == Children(h.children)
  {
  }
}

=== FILE: classnames.dfy ===
/** Class strings as the components build them: an array of segments joined by
    single spaces, optionally after dropping empty segments
    (`[...].filter(Boolean).join(" ")`), and the class-list view of such a
    string (its space-separated tokens, empty pieces ignored). */
module ClassNames {

  /** `parts.join(" ")`: no filtering, so empty parts leave their spaces. */
  function JoinAll(parts: seq<string>): (r: string)
    ensures |parts| > 0 ==> |parts[0]| <= |r| && r[..|parts[0]|] == parts[0]
  {
    if |parts| == 0 then ""
    else if |parts| == 1 then parts[0]
    else parts[0] + " " + JoinAll(parts[1..])
  }

  /** `parts.filter(Boolean)` on strings: drops the empty ones and keeps the
      rest in order. */
  function DropEmpty(parts: seq<string>): (r: seq<string>)
    ensures |r| <= |parts|
  {
    if |parts| == 0 then []
    else if parts[0] == "" then DropEmpty(parts[1..])
    else [parts[0]] + DropEmpty(parts[1..])
  }

  /** Filtering keeps exactly the non-empty parts. */
  lemma {:induction false} DropEmptyKeeps(parts: seq<string>)
    ensures forall i :: 0 <= i < |DropEmpty(parts)| ==> DropEmpty(parts)[i] != ""
    ensures forall x :: x in DropEmpty(parts) <==> x in parts && x != ""
  {
    if |parts| > 0 {
      DropEmptyKeeps(parts[1..]);
      assert parts == [parts[0]] + parts[1..];
    }
  }

  /** `parts.filter(Boolean).join(" ")`. */
  function JoinNonEmpty(parts: seq<string>): string {
    JoinAll(DropEmpty(parts))
  }

  /** Index of the first space of `s`. */
  function FirstSpace(s: string): (i: nat)
    requires ' ' in s
    ensures i < |s| && s[i] == ' ' && ' ' !in s[..i]
  {
    if s[0] == ' ' then 0
    else
      assert ' ' in s[1..] by {
        var k :| 0 <= k < |s| && s[k] == ' ';
        assert s[1..][k - 1] == ' ';
      }
      1 + FirstSpace(s[1..])
  }

  /** `s.split(" ")`: the pieces between single spaces, empty pieces kept. */
  function Split(s: string): (r: seq<string>)
    ensures |r| > 0
    ensures forall i :: 0 <= i < |r| ==> ' ' !in r[i]
    decreases |s|
  {
    if ' ' !in s then [s]
    else
      var i := FirstSpace(s);
      [s[..i]] + Split(s[i + 1..])
  }

  /** The class list a class string denotes: its non-empty space-separated pieces. */
  function Tokens(s: string): seq<string> {
    DropEmpty(Split(s))
  }

  /** The tokens of every part, part by part, in order. */
  function TokensOfEach(parts: seq<string>): seq<string> {
    if |parts| == 0 then [] else Tokens(parts[0]) + TokensOfEach(parts[1..])
  }

  /** A single class token: non-empty and free of spaces. */
  predicate IsToken(t: string) {
    t != "" && ' ' !in t
  }

  predicate AllTokens(ts: seq<string>) {
    forall i :: 0 <= i < |ts| ==> IsToken(ts[i])
  }

  /** No leading space, no trailing space, no two spaces in a row. */
  predicate WellSpaced(s: string) {
    forall i :: 0 <= i < |s| && s[i] == ' ' ==> 0 < i < |s| - 1 && s[i + 1] != ' '
  }

  predicate AllWellSpaced(parts: seq<string>) {
    forall i :: 0 <= i < |parts| ==> WellSpaced(parts[i])
  }

  // ---------------------------------------------------------------------------
  // Split and JoinAll are inverse to each other.

  lemma FirstSpaceAt(s: string, k: nat)
    requires k < |s| && s[k] == ' ' && ' ' !in s[..k]
    ensures ' ' in s && FirstSpace(s) == k
  {
    assert s[k] in s;
    var j := FirstSpace(s);
  }

  /** Joining the pieces of a split gives the string back, whatever it holds. */
  lemma {:induction false} JoinSplit(s: string)
    ensures JoinAll(Split(s)) == s
    decreases |s|
  {
    if ' ' in s {
      var i := FirstSpace(s);
      var rest := Split(s[i + 1..]);
      assert Split(s) == [s[..i]] + rest;
      assert ([s[..i]] + rest)[1..] == rest;
      JoinSplit(s[i + 1..]);
      assert s == s[..i] + " " + s[i + 1..];
    }
  }

  /** Splitting at a space splits each side independently. */
  lemma {:induction false} SplitSeparated(a: string, b: string)
    ensures Split(a + " " + b) == Split(a) + Split(b)
    decreases |a|
  {
    if ' ' !in a {
      SplitAfterWord(a, b);
    } else {
      var i := FirstSpace(a);
      SplitAfterFirstSpace(a, b);
      SplitSeparated(a[i + 1..], b);
      assert Split(a) == [a[..i]] + Split(a[i + 1..]);
      AppendAssoc([a[..i]], Split(a[i + 1..]), Split(b));
    }
  }

  /** A space-free head is the first piece. */
  lemma SplitAfterWord(a: string, b: string)
    requires ' ' !in a
    ensures Split(a + " " + b) == [a] + Split(b)
  {
    var s := a + " " + b;
    assert s[..|a|] == a;
    FirstSpaceAt(s, |a|);
    assert s[|a| + 1..] == b;
  }

  /** The first space of the head is the first space of the whole. */
  lemma SplitAfterFirstSpace(a: string, b: string)
    requires ' ' in a
    ensures var i := FirstSpace(a);
            Split(a + " " + b) == [a[..i]] + Split(a[i + 1..] + " " + b)
  {
    var s := a + " " + b;
    var i := FirstSpace(a);
    assert s[..i] == a[..i];
    FirstSpaceAt(s, i);
    assert s[i + 1..] == a[i + 1..] + " " + b;
  }

  /** Splitting a join of space-free parts gives the parts back. */
  lemma {:induction false} SplitJoin(parts: seq<string>)
    requires |parts| > 0
    requires forall i :: 0 <= i < |parts| ==> ' ' !in parts[i]
    ensures Split(JoinAll(parts)) == parts
  {
    if |parts| > 1 {
      SplitSeparated(parts[0], JoinAll(parts[1..]));
      SplitJoin(parts[1..]);
      assert parts == [parts[0]] + parts[1..];
    }
  }

  // ---------------------------------------------------------------------------
  // Dropping empty segments.

  lemma {:induction false} DropEmptyConcat(a: seq<string>, b: seq<string>)
    ensures DropEmpty(a + b) == DropEmpty(a) + DropEmpty(b)
  {
    if |a| > 0 {
      assert (a + b)[0] == a[0];
      assert (a + b)[1..] == a[1..] + b;
      DropEmptyConcat(a[1..], b);
    } else {
      assert a + b == b;
    }
  }

  lemma {:induction false} DropEmptyOfNonEmpty(parts: seq<string>)
    requires forall i :: 0 <= i < |parts| ==> parts[i] != ""
    ensures DropEmpty(parts) == parts
  {
    if |parts| > 0 {
      DropEmptyOfNonEmpty(parts[1..]);
      assert parts == [parts[0]] + parts[1..];
    }
  }

  lemma {:induction false} TokensOfEachDropEmpty(parts: seq<string>)
    ensures TokensOfEach(DropEmpty(parts)) == TokensOfEach(parts)
  {
    if |parts| > 0 {
      TokensOfEachDropEmpty(parts[1..]);
      if parts[0] == "" {
        assert Split("") == [""];
      } else {
        assert ([parts[0]] + DropEmpty(parts[1..]))[1..] == DropEmpty(parts[1..]);
      }
    }
  }

  // ---------------------------------------------------------------------------
  // The tokens of a joined class string are the tokens of its parts, in order.

  /** Joining, filtered or not, neither loses, adds nor reorders tokens. */
  lemma {:induction false} TokensJoinAll(parts: seq<string>)
    ensures Tokens(JoinAll(parts)) == TokensOfEach(parts)
  {
    if |parts| == 0 {
      assert Split("") == [""];
    } else if |parts| == 1 {
      assert TokensOfEach(parts[1..]) == [];
    } else {
      SplitSeparated(parts[0], JoinAll(parts[1..]));
      DropEmptyConcat(Split(parts[0]), Split(JoinAll(parts[1..])));
      TokensJoinAll(parts[1..]);
    }
  }

  lemma TokensJoinNonEmpty(parts: seq<string>)
    ensures Tokens(JoinNonEmpty(parts)) == TokensOfEach(parts)
  {
    TokensJoinAll(DropEmpty(parts));
    TokensOfEachDropEmpty(parts);
  }

  /** A token list joined by spaces denotes exactly that token list. */
  lemma TokensOfWords(ts: seq<string>)
    requires AllTokens(ts)
    ensures Tokens(JoinAll(ts)) == ts
  {
    if |ts| == 0 {
      assert Split("") == [""];
    } else {
      SplitJoin(ts);
      DropEmptyOfNonEmpty(ts);
    }
  }

  // ---------------------------------------------------------------------------
  // Spacing.

  lemma WellSpacedSeparated(a: string, b: string)
    requires a != "" && b != "" && WellSpaced(a) && WellSpaced(b)
    ensures WellSpaced(a + " " + b)
  {
    var s := a + " " + b;
    forall i | 0 <= i < |s| && s[i] == ' '
      ensures 0 < i < |s| - 1 && s[i + 1] != ' '
    {
      if i < |a| {
        assert s[i] == a[i];
        if i + 1 < |a| { assert s[i + 1] == a[i + 1]; }
      } else if i == |a| {
        assert a[0] != ' ';
        assert s[i + 1] == b[0];
        assert b[0] != ' ';
      } else {
        assert s[i] == b[i - |a| - 1];
        assert s[i + 1] == b[i - |a|];
      }
    }
  }

  /** Joining non-empty, well-spaced parts gives a well-spaced string. */
  lemma {:induction false} JoinAllWellSpaced(parts: seq<string>)
    requires forall i :: 0 <= i < |parts| ==> parts[i] != "" && WellSpaced(parts[i])
    ensures WellSpaced(JoinAll(parts))
    ensures |parts| > 0 ==> JoinAll(parts) != ""
  {
    if |parts| > 1 {
      JoinAllWellSpaced(parts[1..]);
      WellSpacedSeparated(parts[0], JoinAll(parts[1..]));
    }
  }

  /** The filtered join never produces a leading, trailing or doubled space
      unless one of its segments already carries it. */
  lemma JoinNonEmptyWellSpaced(parts: seq<string>)
    requires AllWellSpaced(parts)
    ensures WellSpaced(JoinNonEmpty(parts))
  {
    var kept := DropEmpty(parts);
    DropEmptyKeeps(parts);
    forall i | 0 <= i < |kept|
      ensures kept[i] != "" && WellSpaced(kept[i])
    {
      assert kept[i] in kept;
      var j :| 0 <= j < |parts| && parts[j] == kept[i];
    }
    JoinAllWellSpaced(kept);
  }

  /** A well-spaced string is its own tokens joined by single spaces. */
  lemma {:induction false} WellSpacedSplit(s: string)
    requires WellSpaced(s) && s != ""
    ensures forall i :: 0 <= i < |Split(s)| ==> Split(s)[i] != ""
    decreases |s|
  {
    if ' ' in s {
      var i := FirstSpace(s);
      var rest := s[i + 1..];
      assert rest[0] == s[i + 1];
      forall j | 0 <= j < |rest| && rest[j] == ' '
        ensures 0 < j < |rest| - 1 && rest[j + 1] != ' '
      {
        assert s[i + 1 + j] == ' ';
        assert s[i + 2 + j] == rest[j + 1];
      }
      WellSpacedSplit(rest);
      assert s[..i] != "" by { assert i > 0; }
    }
  }

  lemma WellSpacedJoinTokens(s: string)
    requires WellSpaced(s)
    ensures s == JoinAll(Tokens(s))
  {
    if s == "" {
      assert Split("") == [""];
    } else {
      WellSpacedSplit(s);
      DropEmptyOfNonEmpty(Split(s));
      JoinSplit(s);
    }
  }

  /** The exact form of a filtered join of well-spaced segments: every token
      of every segment, in segment order, each separated by one space. */
  lemma ResolvedExactly(parts: seq<string>)
    requires AllWellSpaced(parts)
    ensures JoinNonEmpty(parts) == JoinAll(TokensOfEach(parts))
    ensures WellSpaced(JoinNonEmpty(parts))
  {
    JoinNonEmptyWellSpaced(parts);
    WellSpacedJoinTokens(JoinNonEmpty(parts));
    TokensJoinNonEmpty(parts);
  }

  lemma TokensAreWellSpaced(ts: seq<string>)
    requires AllTokens(ts)
    ensures WellSpaced(JoinAll(ts))
  {
    JoinAllWellSpaced(ts);
  }

  // ---------------------------------------------------------------------------
  // The last segment.

  lemma {:induction false} JoinAllSnoc(parts: seq<string>, c: string)
    requires |parts| > 0
    ensures JoinAll(parts + [c]) == JoinAll(parts) + " " + c
  {
    if |parts| > 1 {
      assert (parts + [c])[1..] == parts[1..] + [c];
      JoinAllSnoc(parts[1..], c);
    }
  }

  /** An empty last segment is dropped: it contributes no space. */
  lemma JoinNonEmptyEmptyLast(parts: seq<string>)
    ensures JoinNonEmpty(parts + [""]) == JoinNonEmpty(parts)
  {
    DropEmptyConcat(parts, [""]);
    assert DropEmpty(parts + [""]) == DropEmpty(parts);
  }

  /** A non-empty last segment ends the filtered join, after exactly one space
      when anything precedes it. */
  lemma JoinNonEmptyLast(parts: seq<string>, c: string)
    requires c != ""
    ensures DropEmpty(parts) == [] ==> JoinNonEmpty(parts + [c]) == c
    ensures DropEmpty(parts) != [] ==> JoinNonEmpty(parts + [c]) == JoinNonEmpty(parts) + " " + c
  {
    DropEmptyConcat(parts, [c]);
    assert DropEmpty([c]) == [c];
    if DropEmpty(parts) != [] {
      JoinAllSnoc(DropEmpty(parts), c);
    }
  }

  // ---------------------------------------------------------------------------
  // The segment shapes the components use, stated on their elements.  Each
  // gives the class list of the filtered join and its spacing.

  lemma SingleToken(t: string)
    requires IsToken(t)
    ensures Tokens(t) == [t] && WellSpaced(t)
  {
    TokensOfWords([t]);
  }

  lemma WordsOf(ts: seq<string>)
    requires AllTokens(ts)
    ensures Tokens(JoinAll(ts)) == ts
    ensures WellSpaced(JoinAll(ts))
  {
    TokensOfWords(ts);
    TokensAreWellSpaced(ts);
  }

  /** A fragment that is a word list when its flag is on and empty otherwise. */
  lemma GatedWords(on: bool, ts: seq<string>)
    requires AllTokens(ts)
    ensures Tokens(if on then JoinAll(ts) else "") == (if on then ts else [])
    ensures WellSpaced(if on then JoinAll(ts) else "")
  {
    WordsOf(ts);
    EmptyHasNoTokens();
  }

  /** A fragment that is one token when its flag is on and empty otherwise. */
  lemma GatedToken(on: bool, t: string)
    requires IsToken(t)
    ensures Tokens(if on then t else "") == (if on then [t] else [])
    ensures WellSpaced(if on then t else "")
  {
    SingleToken(t);
    EmptyHasNoTokens();
  }

  /** Four flag-gated fragments, two word lists and two single tokens, filtered
      and joined: the gated lists in order, single spaced. */
  lemma GatedJoin4(g0: bool, w0: seq<string>, g1: bool, w1: seq<string>, g2: bool, t2: string, g3: bool, t3: string)
    requires AllTokens(w0) && AllTokens(w1) && IsToken(t2) && IsToken(t3)
    ensures var parts := [if g0 then JoinAll(w0) else "", if g1 then JoinAll(w1) else "",
                          if g2 then t2 else "", if g3 then t3 else ""];
            && Tokens(JoinNonEmpty(parts))
               == (if g0 then w0 else []) + ((if g1 then w1 else []) + ((if g2 then [t2] else []) + (if g3 then [t3] else [])))
            && WellSpaced(JoinNonEmpty(parts))
  {
    var parts := [if g0 then JoinAll(w0) else "", if g1 then JoinAll(w1) else "",
                  if g2 then t2 else "", if g3 then t3 else ""];
    GatedWords(g0, w0);
    GatedWords(g1, w1);
    GatedToken(g2, t2);
    GatedToken(g3, t3);
    FilteredJoin4(parts);
    FilteredSpacing4(parts[0], parts[1], parts[2], parts[3]);
  }

  lemma TokensOfEachAt(parts: seq<string>, k: nat)
    requires k < |parts|
    ensures TokensOfEach(parts[k..]) == Tokens(parts[k]) + TokensOfEach(parts[k + 1..])
  {
    assert parts[k..][1..] == parts[k + 1..];
  }

  lemma TokensOfEachLast(parts: seq<string>)
    requires |parts| > 0
    ensures TokensOfEach(parts[|parts| - 1..]) == Tokens(parts[|parts| - 1])
  {
    var t := Tokens(parts[|parts| - 1]);
    assert parts[|parts| - 1..][1..] == [];
    assert t + [] == t;
  }

  // FilteredJoin2-6 and FilteredSpacing2-6 are `TokensJoinNonEmpty` and
  // `JoinNonEmptyWellSpaced` unrolled for a fixed number of segments. They
  // exist only to bound solver cost: the components call them instead of
  // unfolding the recursive definitions at each site.

  /** The class list of a filtered join of 2 segments: each segment's tokens, in order. */
  lemma FilteredJoin2(parts: seq<string>)
    requires |parts| == 2
    ensures Tokens(JoinNonEmpty(parts)) == Tokens(parts[0]) + Tokens(parts[1])
  {
    TokensJoinNonEmpty(parts);
    TokensOfEachAt(parts, 0);
    TokensOfEachLast(parts);
  }

  /** The class list of a filtered join of 3 segments: each segment's tokens, in order. */
  lemma FilteredJoin3(parts: seq<string>)
    requires |parts| == 3
    ensures Tokens(JoinNonEmpty(parts)) == Tokens(parts[0]) + (Tokens(parts[1]) + Tokens(parts[2]))
  {
    TokensJoinNonEmpty(parts);
    TokensOfEachAt(parts, 0);
    TokensOfEachAt(parts, 1);
    TokensOfEachLast(parts);
  }

  /** The class list of a filtered join of 4 segments: each segment's tokens, in order. */
  lemma FilteredJoin4(parts: seq<string>)
    requires |parts| == 4
    ensures Tokens(JoinNonEmpty(parts)) == Tokens(parts[0]) + (Tokens(parts[1]) + (Tokens(parts[2]) + Tokens(parts[3])))
  {
    TokensJoinNonEmpty(parts);
    TokensOfEachAt(parts, 0);
    TokensOfEachAt(parts, 1);
    TokensOfEachAt(parts, 2);
    TokensOfEachLast(parts);
  }

  /** The class list of a filtered join of 5 segments: each segment's tokens, in order. */
  lemma FilteredJoin5(parts: seq<string>)
    requires |parts| == 5
    ensures Tokens(JoinNonEmpty(parts)) == Tokens(parts[0]) + (Tokens(parts[1]) + (Tokens(parts[2]) + (Tokens(parts[3]) + Tokens(parts[4]))))
  {
    TokensJoinNonEmpty(parts);
    TokensOfEachAt(parts, 0);
    TokensOfEachAt(parts, 1);
    TokensOfEachAt(parts, 2);
    TokensOfEachAt(parts, 3);
    TokensOfEachLast(parts);
  }

  /** The class list of a filtered join of 6 segments: each segment's tokens, in order. */
  lemma FilteredJoin6(parts: seq<string>)
    requires |parts| == 6
    ensures Tokens(JoinNonEmpty(parts)) == Tokens(parts[0]) + (Tokens(parts[1]) + (Tokens(parts[2]) + (Tokens(parts[3]) + (Tokens(parts[4]) + Tokens(parts[5])))))
  {
    TokensJoinNonEmpty(parts);
    TokensOfEachAt(parts, 0);
    TokensOfEachAt(parts, 1);
    TokensOfEachAt(parts, 2);
    TokensOfEachAt(parts, 3);
    TokensOfEachAt(parts, 4);
    TokensOfEachLast(parts);
  }

  lemma FilteredSpacing2(a: string, b: string)
    requires WellSpaced(a) && WellSpaced(b)
    ensures WellSpaced(JoinNonEmpty([a, b]))
  {
    JoinNonEmptyWellSpaced([a, b]);
  }

  lemma FilteredSpacing3(a: string, b: string, c: string)
    requires WellSpaced(a) && WellSpaced(b) && WellSpaced(c)
    ensures WellSpaced(JoinNonEmpty([a, b, c]))
  {
    JoinNonEmptyWellSpaced([a, b, c]);
  }

  lemma FilteredSpacing4(a: string, b: string, c: string, d: string)
    requires WellSpaced(a) && WellSpaced(b) && WellSpaced(c) && WellSpaced(d)
    ensures WellSpaced(JoinNonEmpty([a, b, c, d]))
  {
    JoinNonEmptyWellSpaced([a, b, c, d]);
  }

  lemma FilteredSpacing5(a: string, b: string, c: string, d: string, e: string)
    requires WellSpaced(a) && WellSpaced(b) && WellSpaced(c) && WellSpaced(d) && WellSpaced(e)
    ensures WellSpaced(JoinNonEmpty([a, b, c, d, e]))
  {
    JoinNonEmptyWellSpaced([a, b, c, d, e]);
  }

  lemma FilteredSpacing6(a: string, b: string, c: string, d: string, e: string, f: string)
    requires WellSpaced(a) && WellSpaced(b) && WellSpaced(c) && WellSpaced(d) && WellSpaced(e) && WellSpaced(f)
    ensures WellSpaced(JoinNonEmpty([a, b, c, d, e, f]))
  {
    JoinNonEmptyWellSpaced([a, b, c, d, e, f]);
  }

  /** An unfiltered two-part join: the parts with one space between them,
      whatever they hold. */
  lemma PlainJoin2(a: string, b: string)
    ensures JoinAll([a, b]) == a + " " + b
    ensures Tokens(JoinAll([a, b])) == Tokens(a) + Tokens(b)
  {
    assert [a, b][1..] == [b];
    TokensJoinAll([a, b]);
    TokensOfEachAt([a, b], 0);
    TokensOfEachLast([a, b]);
  }

  lemma EmptyHasNoTokens()
    ensures Tokens("") == [] && WellSpaced("")
  {
    assert Split("") == [""];
  }

  lemma AppendAssoc(a: seq<string>, b: seq<string>, c: seq<string>)
    ensures a + (b + c) == (a + b) + c
  {
  }

  /** A token none of the first three lists holds is in the five-way sum iff
      it is in one of the last two. */
  lemma InTail(t: string, a: seq<string>, b: seq<string>, c: seq<string>, d: seq<string>, e: seq<string>)
    requires t !in a && t !in b && t !in c
    ensures t in a + (b + (c + (d + e))) <==> t in d || t in e
  {
  }

  /** A well-spaced string with a known class list is that list joined by
      single spaces. */
  lemma ExactFromTokens(s: string, ts: seq<string>)
    requires WellSpaced(s) && Tokens(s) == ts
    ensures s == JoinAll(ts)
  {
    WellSpacedJoinTokens(s);
  }

  /** Where a flag-gated token `t` sits in a five-way sum: right after the
      first three lists, or nowhere. */
  lemma InsertAfter(a: seq<string>, b: seq<string>, c: seq<string>, x: seq<string>, e: seq<string>, t: string)
    ensures a + (b + (c + (x + e))) == (a + (b + c)) + (x + e)
    ensures a + (b + (c + (([t] + x) + e))) == (a + (b + c)) + ([t] + (x + e))
  {
  }

  /** Empty gated lists and an empty caller class leave just the first three.
      A re-bracketing step, kept separate only to bound solver cost. */
  lemma EmptyTail(a: seq<string>, b: seq<string>, c: seq<string>)
    ensures a + (b + (c + (([] + ([] + [])) + []))) == a + (b + c)
  {
    assert c + (([] + ([] + [])) + []) == c;
  }

  // ---------------------------------------------------------------------------
  // How many times a token is listed.  The resolvers never de-duplicate, so a
  // class list can hold the same token more than once.

  function Count(ts: seq<string>, t: string): (n: nat)
    ensures n <= |ts|
    ensures n == 0 <==> t !in ts
  {
    if |ts| == 0 then 0
    else (if ts[0] == t then 1 else 0) + Count(ts[1..], t)
  }

  /** The count agrees with the multiplicity in the list's multiset. */
  lemma {:induction false} CountIsMultiplicity(ts: seq<string>, t: string)
    ensures Count(ts, t) == multiset(ts)[t]
  {
    if |ts| > 0 {
      assert ts == [ts[0]] + ts[1..];
      CountIsMultiplicity(ts[1..], t);
    }
  }

  lemma {:induction false} CountConcat(a: seq<string>, b: seq<string>, t: string)
    ensures Count(a + b, t) == Count(a, t) + Count(b, t)
  {
    if |a| == 0 {
      assert a + b == b;
    } else {
      assert (a + b)[1..] == a[1..] + b;
      CountConcat(a[1..], b, t);
    }
  }

  lemma CountSingle(x: string, t: string)
    ensures Count([x], t) == if x == t then 1 else 0
  {
    assert [x][1..] == [];
  }

  /** A token listed first and nowhere after is counted once. */
  lemma CountLeading(t: string, rest: seq<string>)
    requires t !in rest
    ensures Count([t] + rest, t) == 1
  {
    CountConcat([t], rest, t);
    CountSingle(t, t);
  }

  lemma CountSum4(t: string, a: seq<string>, b: seq<string>, c: seq<string>, d: seq<string>)
    ensures Count(a + (b + (c + d)), t) == Count(a, t) + Count(b, t) + Count(c, t) + Count(d, t)
  {
    CountConcat(c, d, t);
    CountConcat(b, c + d, t);
    CountConcat(a, b + (c + d), t);
  }

  lemma CountSum6(t: string, a: seq<string>, b: seq<string>, c: seq<string>, d: seq<string>, e: seq<string>, f: seq<string>)
    ensures Count(a + (b + (c + (d + (e + f)))), t)
         == Count(a, t) + Count(b, t) + Count(c, t) + Count(d, t) + Count(e, t) + Count(f, t)
  {
    CountConcat(e, f, t);
    CountSum4(t, a, b, c, d + (e + f));
    CountConcat(d, e + f, t);
  }
}

=== FILE: input.dfy ===
/** The Input component: the class strings of its field, label, helper text
    and icon containers, the id it gives the field, and which parts it renders. */
module Input {
  import opened Wrappers
  import opened ClassNames

  datatype Variant = Default | Error | Success
  datatype Size = Sm | Md | Lg

  /** The props the component reads.  Icons are opaque nodes of type `N`;
      `None` stands for an absent (or falsy) node, and an absent `label`,
      `helperText` or `id` is `None`. */
  datatype InputProps<N> = InputProps(
    variant: Option<Variant>,
    inputSize: Option<Size>,
    labelText: Option<string>,
    helperText: Option<string>,
    leftIcon: Option<N>,
    rightIcon: Option<N>,
    fullWidth: Option<bool>,
    className: Option<string>,
    disabled: bool,
    id: Option<string>)

  // Destructuring defaults.
  function VariantOf<N>(p: InputProps<N>): Variant { p.variant.GetOr(Default) }
  function SizeOf<N>(p: InputProps<N>): Size { p.inputSize.GetOr(Md) }
  function FullWidth<N>(p: InputProps<N>): bool { p.fullWidth.GetOr(false) }
  function Extra<N>(p: InputProps<N>): string { p.className.GetOr("") }

  /** The field's id: the caller's id when it is truthy, otherwise `input-`
      followed by a generated suffix.  The suffix comes from a random number
      drawn on every render, so it is a parameter here. */
  function FieldId<N>(p: InputProps<N>, generated: string): (r: string)
    ensures r != ""
    ensures Truthy(p.id) ==> r == p.id.value
    ensures !Truthy(p.id) ==> |r| >= 6 && r[..6] == "input-"
  {
    if Truthy(p.id) then p.id.value else "input-" + generated
  }

  // ---------------------------------------------------------------------------
  // Constant tables, token by token; joined by spaces they are the source's strings.

  const BaseTokens: seq<string> := [
    "border", "rounded-md",
    "focus:outline-none", "focus:ring-2", "focus:ring-offset-1",
    "transition-all", "duration-200", "ease-in-out",
    "placeholder:text-gray-400",
    "disabled:bg-gray-50", "disabled:text-gray-500", "disabled:cursor-not-allowed"]

  function SizeTokens(s: Size): seq<string> {
    match s
    case Sm => ["px-3", "py-1.5", "text-sm"]
    case Md => ["px-4", "py-2", "text-base"]
    case Lg => ["px-4", "py-3", "text-lg"]
  }

  function VariantTokens(v: Variant): seq<string> {
    match v
    case Default =>
      ["border-gray-300", "bg-white", "text-gray-900",
       "hover:border-gray-400", "focus:ring-blue-500", "focus:border-blue-500",
       "disabled:border-gray-200"]
    case Error =>
      ["border-red-300", "bg-white", "text-gray-900",
       "hover:border-red-400", "focus:ring-red-500", "focus:border-red-500",
       "disabled:border-red-200"]
    case Success =>
      ["border-green-300", "bg-white", "text-gray-900",
       "hover:border-green-400", "focus:ring-green-500", "focus:border-green-500",
       "disabled:border-green-200"]
  }

  const BaseStyle: string := JoinAll(BaseTokens)
  function SizeStyle(s: Size): string { JoinAll(SizeTokens(s)) }
  function VariantStyle(v: Variant): string { JoinAll(VariantTokens(v)) }

  const IconContainerTokens: seq<string> :=
    ["absolute", "inset-y-0", "flex", "items-center", "pointer-events-none"]
  const IconContainerStyle: string := JoinAll(IconContainerTokens)

  /** The containers around the icons: the shared style with the side's
      position and inset appended. */
  const LeftSideTokens: seq<string> := ["left-0", "pl-3"]
  const RightSideTokens: seq<string> := ["right-0", "pr-3"]
  const LeftIconStyle: string := IconContainerStyle + " " + JoinAll(LeftSideTokens)
  const RightIconStyle: string := IconContainerStyle + " " + JoinAll(RightSideTokens)

  const LabelBaseTokens: seq<string> := ["block", "text-sm", "font-medium", "mb-1"]
  const HelperBaseTokens: seq<string> := ["mt-1", "text-sm"]

  function LabelTone(v: Variant): string {
    match v
    case Error => "text-red-700"
    case Success => "text-green-700"
    case Default => "text-gray-700"
  }

  function HelperTone(v: Variant): string {
    match v
    case Error => "text-red-600"
    case Success => "text-green-600"
    case Default => "text-gray-500"
  }

  // ---------------------------------------------------------------------------
  // The resolvers, as the component computes them.

  /** `paddingAdjustments`: room for the icons, filtered and joined. */
  function Padding(left: bool, right: bool): string {
    JoinNonEmpty([if left then "pl-10" else "", if right then "pr-10" else ""])
  }

  function Segments<N>(p: InputProps<N>): seq<string> {
    [BaseStyle, SizeStyle(SizeOf(p)), VariantStyle(VariantOf(p)),
     Padding(p.leftIcon.Some?, p.rightIcon.Some?),
     if FullWidth(p) then "w-full" else "",
     Extra(p)]
  }

  /** `inputClassName`. */
  function ClassName<N>(p: InputProps<N>): string {
    JoinNonEmpty(Segments(p))
  }

  /** `labelStyle`: filtered, so an enabled field's label has no trailing space. */
  function LabelClass(v: Variant, disabled: bool): string {
    JoinNonEmpty([JoinAll(LabelBaseTokens), LabelTone(v), if disabled then "text-gray-500" else ""])
  }

  /** `helperTextStyle`: joined without filtering; both parts are never empty. */
  function HelperClass(v: Variant): string {
    JoinAll([JoinAll(HelperBaseTokens), HelperTone(v)])
  }

  // ---------------------------------------------------------------------------
  // The class lists the resolvers are meant to produce, stated token by token.

  function PaddingTokens(left: bool, right: bool): seq<string> {
    (if left then ["pl-10"] else []) + (if right then ["pr-10"] else [])
  }

  function WidthTokens(fullWidth: bool): seq<string> {
    if fullWidth then ["w-full"] else []
  }

  function ExpectedTokens<N>(p: InputProps<N>): seq<string> {
    BaseTokens + (SizeTokens(SizeOf(p)) + (VariantTokens(VariantOf(p))
    + (PaddingTokens(p.leftIcon.Some?, p.rightIcon.Some?)
    + (WidthTokens(FullWidth(p)) + Tokens(Extra(p))))))
  }

  function LabelTokens(v: Variant, disabled: bool): seq<string> {
    LabelBaseTokens + ([LabelTone(v)] + (if disabled then ["text-gray-500"] else []))
  }

  /** Every table entry is a list of single class tokens. */
  lemma BaseTable()
    ensures AllTokens(BaseTokens)
  {
  }

  lemma SmallTables()
    ensures AllTokens(IconContainerTokens) && AllTokens(LabelBaseTokens) && AllTokens(HelperBaseTokens)
    ensures AllTokens(LeftSideTokens) && AllTokens(RightSideTokens)
  {
  }

  lemma SizeTable(s: Size)
    ensures AllTokens(SizeTokens(s))
  {
  }

  lemma VariantTable(v: Variant)
    ensures AllTokens(VariantTokens(v))
  {
  }

  lemma ToneTable(v: Variant)
    ensures IsToken(LabelTone(v)) && IsToken(HelperTone(v))
  {
  }

  lemma PaddingSegment(left: bool, right: bool)
    ensures Tokens(Padding(left, right)) == PaddingTokens(left, right)
    ensures WellSpaced(Padding(left, right))
  {
    var parts := [if left then "pl-10" else "", if right then "pr-10" else ""];
    SingleToken("pl-10");
    SingleToken("pr-10");
    EmptyHasNoTokens();
    FilteredJoin2(parts);
    FilteredSpacing2(parts[0], parts[1]);
  }

  lemma WidthSegment(fullWidth: bool)
    ensures Tokens(if fullWidth then "w-full" else "") == WidthTokens(fullWidth)
    ensures WellSpaced(if fullWidth then "w-full" else "")
  {
    SingleToken("w-full");
    EmptyHasNoTokens();
  }

  lemma SegmentFacts<N>(p: InputProps<N>)
    ensures WellSpaced(BaseStyle) && WellSpaced(SizeStyle(SizeOf(p))) && WellSpaced(VariantStyle(VariantOf(p)))
    ensures WellSpaced(Padding(p.leftIcon.Some?, p.rightIcon.Some?))
    ensures WellSpaced(if FullWidth(p) then "w-full" else "")
    ensures Tokens(ClassName(p)) == ExpectedTokens(p)
  {
    BaseTable();
    SizeTable(SizeOf(p));
    VariantTable(VariantOf(p));
    WordsOf(BaseTokens);
    WordsOf(SizeTokens(SizeOf(p)));
    WordsOf(VariantTokens(VariantOf(p)));
    PaddingSegment(p.leftIcon.Some?, p.rightIcon.Some?);
    WidthSegment(FullWidth(p));
    FilteredJoin6(Segments(p));
  }

  /** The field's class lists the base, size, variant, padding and width tokens
      and then the caller's tokens, in that order, none lost, added or reordered. */
  lemma ClassTokens<N>(p: InputProps<N>)
    ensures Tokens(ClassName(p)) == ExpectedTokens(p)
  {
    SegmentFacts(p);
  }

  /** With a well-spaced caller class (in particular the default `""`), the
      field's class is exactly the expected tokens joined by single spaces. */
  lemma ClassExact<N>(p: InputProps<N>)
    requires WellSpaced(Extra(p))
    ensures ClassName(p) == JoinAll(ExpectedTokens(p))
    ensures WellSpaced(ClassName(p))
  {
    SegmentFacts(p);
    FilteredSpacing6(BaseStyle, SizeStyle(SizeOf(p)), VariantStyle(VariantOf(p)),
      Padding(p.leftIcon.Some?, p.rightIcon.Some?), if FullWidth(p) then "w-full" else "", Extra(p));
    ExactFromTokens(ClassName(p), ExpectedTokens(p));
  }

  /** Omitting an option is the same as passing its documented default, for
      the field's class and for everything else rendered (label and helper
      tones, wrapper width). */
  lemma OmittedIsDefault<N>(p: InputProps<N>, g: string)
    ensures ClassName(p.(variant := None, inputSize := None, fullWidth := None, className := None))
         == ClassName(p.(variant := Some(Default), inputSize := Some(Md), fullWidth := Some(false),
                          className := Some("")))
    ensures Render(p.(variant := None, inputSize := None, fullWidth := None, className := None), g)
         == Render(p.(variant := Some(Default), inputSize := Some(Md), fullWidth := Some(false),
                       className := Some("")), g)
  {
  }

  /** Each option on its own: omitting it renders the same as passing its
      default, whatever the other props are. */
  lemma OmittedVariant<N>(p: InputProps<N>, g: string)
    ensures Render(p.(variant := None), g) == Render(p.(variant := Some(Default)), g)
  {
  }

  lemma OmittedSize<N>(p: InputProps<N>, g: string)
    ensures Render(p.(inputSize := None), g) == Render(p.(inputSize := Some(Md)), g)
  {
  }

  lemma OmittedFullWidth<N>(p: InputProps<N>, g: string)
    ensures Render(p.(fullWidth := None), g) == Render(p.(fullWidth := Some(false)), g)
  {
  }

  lemma OmittedClassName<N>(p: InputProps<N>, g: string)
    ensures Render(p.(className := None), g) == Render(p.(className := Some("")), g)
  {
  }

  // ---------------------------------------------------------------------------
  // Flag-gated tokens.

  /** True when no fixed table the field's resolver consults holds `t`. */
  predicate NotInTables(t: string, s: Size, v: Variant) {
    t !in BaseTokens && t !in SizeTokens(s) && t !in VariantTokens(v)
  }

  lemma LeftPadNotInTables(s: Size, v: Variant)
    ensures NotInTables("pl-10", s, v)
  {
  }

  lemma RightPadNotInTables(s: Size, v: Variant)
    ensures NotInTables("pr-10", s, v)
  {
  }

  lemma WFullNotInTables(s: Size, v: Variant)
    ensures NotInTables("w-full", s, v)
  {
  }

  /** `pl-10` is present iff there is a left icon (or the caller supplied it). */
  lemma LeftPaddingToken<N>(p: InputProps<N>)
    ensures "pl-10" in Tokens(ClassName(p)) <==> p.leftIcon.Some? || "pl-10" in Tokens(Extra(p))
  {
    ClassTokens(p);
    LeftPadNotInTables(SizeOf(p), VariantOf(p));
    InTail("pl-10", BaseTokens, SizeTokens(SizeOf(p)), VariantTokens(VariantOf(p)),
      PaddingTokens(p.leftIcon.Some?, p.rightIcon.Some?), WidthTokens(FullWidth(p)) + Tokens(Extra(p)));
  }

  /** `pr-10` is present iff there is a right icon (or the caller supplied it). */
  lemma RightPaddingToken<N>(p: InputProps<N>)
    ensures "pr-10" in Tokens(ClassName(p)) <==> p.rightIcon.Some? || "pr-10" in Tokens(Extra(p))
  {
    ClassTokens(p);
    RightPadNotInTables(SizeOf(p), VariantOf(p));
    InTail("pr-10", BaseTokens, SizeTokens(SizeOf(p)), VariantTokens(VariantOf(p)),
      PaddingTokens(p.leftIcon.Some?, p.rightIcon.Some?), WidthTokens(FullWidth(p)) + Tokens(Extra(p)));
  }

  /** `w-full` is present iff fullWidth is on (or the caller supplied it). */
  lemma FullWidthToken<N>(p: InputProps<N>)
    ensures "w-full" in Tokens(ClassName(p)) <==> FullWidth(p) || "w-full" in Tokens(Extra(p))
  {
    ClassTokens(p);
    WFullNotInTables(SizeOf(p), VariantOf(p));
    InTail("w-full", BaseTokens, SizeTokens(SizeOf(p)), VariantTokens(VariantOf(p)),
      PaddingTokens(p.leftIcon.Some?, p.rightIcon.Some?), WidthTokens(FullWidth(p)) + Tokens(Extra(p)));
  }

  // ---------------------------------------------------------------------------
  // Label, helper text and icon containers.

  /** The label lists its fixed tokens, the variant's tone and, only when the
      field is disabled, `text-gray-500`; it is well spaced either way. */
  lemma LabelClassTokens(v: Variant, disabled: bool)
    ensures Tokens(LabelClass(v, disabled)) == LabelTokens(v, disabled)
    ensures LabelClass(v, disabled) == JoinAll(LabelTokens(v, disabled))
    ensures "text-gray-500" in Tokens(LabelClass(v, disabled)) <==> disabled
  {
    var parts := [JoinAll(LabelBaseTokens), LabelTone(v), if disabled then "text-gray-500" else ""];
    SmallTables();
    ToneTable(v);
    WordsOf(LabelBaseTokens);
    SingleToken(LabelTone(v));
    SingleToken("text-gray-500");
    EmptyHasNoTokens();
    FilteredJoin3(parts);
    FilteredSpacing3(parts[0], parts[1], parts[2]);
    ExactFromTokens(LabelClass(v, disabled), LabelTokens(v, disabled));
  }

  /** The helper text's class is `mt-1 text-sm` and the variant's tone, single
      spaced, and does not depend on whether the field is disabled. */
  lemma HelperClassTokens(v: Variant)
    ensures Tokens(HelperClass(v)) == HelperBaseTokens + [HelperTone(v)]
    ensures HelperClass(v) == JoinAll(HelperBaseTokens + [HelperTone(v)])
  {
    var base := JoinAll(HelperBaseTokens);
    SmallTables();
    ToneTable(v);
    WordsOf(HelperBaseTokens);
    SingleToken(HelperTone(v));
    PlainJoin2(base, HelperTone(v));
    WellSpacedSeparated(base, HelperTone(v));
    ExactFromTokens(HelperClass(v), HelperBaseTokens + [HelperTone(v)]);
  }

  /** Both icon containers share the container tokens and differ only in the
      side they are pinned to and padded from; both are single spaced. */
  lemma IconContainerTokensOf()
    ensures Tokens(LeftIconStyle) == IconContainerTokens + LeftSideTokens
    ensures Tokens(RightIconStyle) == IconContainerTokens + RightSideTokens
    ensures WellSpaced(LeftIconStyle) && WellSpaced(RightIconStyle)
  {
    SmallTables();
    WordsOf(IconContainerTokens);
    WordsOf(LeftSideTokens);
    WordsOf(RightSideTokens);
    PlainJoin2(IconContainerStyle, JoinAll(LeftSideTokens));
    PlainJoin2(IconContainerStyle, JoinAll(RightSideTokens));
    WellSpacedSeparated(IconContainerStyle, JoinAll(LeftSideTokens));
    WellSpacedSeparated(IconContainerStyle, JoinAll(RightSideTokens));
  }

  // ---------------------------------------------------------------------------
  // Rendering decisions.

  datatype LabelView = LabelView(htmlFor: string, className: string, text: string)
  datatype IconView<N> = IconView(className: string, icon: N)
  datatype FieldView = FieldView(id: string, className: string, disabled: bool)
  datatype HelperView = HelperView(className: string, text: string)

  datatype InputView<N> = InputView(
    wrapperClass: string,
    labelPart: Option<LabelView>,
    leftIcon: Option<IconView<N>>,
    field: FieldView,
    rightIcon: Option<IconView<N>>,
    helper: Option<HelperView>)

  function IconOf<N>(o: Option<N>, style: string): Option<IconView<N>> {
    match o
    case None => None
    case Some(x) => Some(IconView(style, x))
  }

  /** What the component renders, `generated` standing for the random id suffix. */
  function Render<N>(p: InputProps<N>, generated: string): (r: InputView<N>)
    ensures r.labelPart.Some? <==> Truthy(p.labelText)
    ensures r.helper.Some? <==> Truthy(p.helperText)
    ensures r.leftIcon.Some? <==> p.leftIcon.Some?
    ensures r.rightIcon.Some? <==> p.rightIcon.Some?
    ensures r.leftIcon.Some? ==> r.leftIcon.value == IconView(LeftIconStyle, p.leftIcon.value)
    ensures r.rightIcon.Some? ==> r.rightIcon.value == IconView(RightIconStyle, p.rightIcon.value)
    ensures r.labelPart.Some? ==> r.labelPart.value.htmlFor == r.field.id && r.labelPart.value.text == p.labelText.value
    ensures r.helper.Some? ==> r.helper.value.text == p.helperText.value
    ensures r.wrapperClass == (if FullWidth(p) then "w-full" else "")
    ensures r.field.disabled == p.disabled && r.field.className == ClassName(p)
  {
    var id := FieldId(p, generated);
    InputView(
      if FullWidth(p) then "w-full" else "",
      if Truthy(p.labelText) then Some(LabelView(id, LabelClass(VariantOf(p), p.disabled), p.labelText.value)) else None,
      IconOf(p.leftIcon, LeftIconStyle),
      FieldView(id, ClassName(p), p.disabled),
      IconOf(p.rightIcon, RightIconStyle),
      if Truthy(p.helperText) then Some(HelperView(HelperClass(VariantOf(p)), p.helperText.value)) else None)
  }

  /** The rendered label and helper carry their resolvers' class lists: the
      label's tone follows the variant and it lists `text-gray-500` exactly when
      the field is disabled; the helper's tone follows the variant. */
  lemma RenderedTextClasses<N>(p: InputProps<N>, g: string)
    ensures var r := Render(p, g);
            r.labelPart.Some? ==>
              Tokens(r.labelPart.value.className) == LabelTokens(VariantOf(p), p.disabled)
              && ("text-gray-500" in Tokens(r.labelPart.value.className) <==> p.disabled)
    ensures var r := Render(p, g);
            r.helper.Some? ==> Tokens(r.helper.value.className) == HelperBaseTokens + [HelperTone(VariantOf(p))]
  {
    LabelClassTokens(VariantOf(p), p.disabled);
    HelperClassTokens(VariantOf(p));
  }

  /** A truthy caller id is the field's id and the label points at it; it does
      not depend on the generated suffix. */
  lemma ExplicitId<N>(p: InputProps<N>, g1: string, g2: string)
    requires Truthy(p.id)
    ensures Render(p, g1).field.id == p.id.value
    ensures Render(p, g1) == Render(p, g2)
  {
  }

  /** Without a caller id the field's id is `input-` and the generated suffix,
      so two renders that draw different suffixes give the field (and the
      label's `htmlFor`) different ids. */
  lemma GeneratedId<N>(p: InputProps<N>, g1: string, g2: string)
    requires !Truthy(p.id)
    ensures Render(p, g1).field.id == "input-" + g1
    ensures g1 != g2 ==> Render(p, g1).field.id != Render(p, g2).field.id
  {
    if g1 != g2 {
      assert ("input-" + g1)[6..] == g1;
      assert ("input-" + g2)[6..] == g2;
    }
  }

  /** An empty label text renders no label, and an empty helper text renders
      no helper, each independently of the other. */
  lemma EmptyTextsRenderNothing<N>(p: InputProps<N>, g: string)
    ensures p.labelText == Some("") ==> Render(p, g).labelPart.None?
    ensures p.helperText == Some("") ==> Render(p, g).helper.None?
  {
  }
}

=== FILE: wrappers.dfy ===
/** Optional component props.  A prop the caller leaves out (or sets to
    `undefined`) is `None`; its default, when the component declares one, is
    applied with `GetOr`. */
module Wrappers {

  datatype Option<+T> = None | Some(value: T) {

    /** The destructuring default `x = d`: `d` when the prop is absent. */
    function GetOr(default: T): T {
      match this
      case Some(v) => v
      case None => default
    }
  }

  /** JavaScript truthiness of an optional string prop: absent and `""` are
      both falsy. */
  predicate Truthy(s: Option<string>) {
    s.Some? && s.value != ""
  }
}
